=== FILE: README.md ===
# cxx_bench core, modelled in Dafny

cxx_bench is a microbenchmark harness for C++. A benchmark is a *fixture*
with five hooks: `initialize`, `prologue`, `run`, `epilogue` and
`finalize`. `run(iterations, tid)` does some of the requested work and
returns the part it did not do, its remainder. The execution engine
(`src/run.cpp`) works as follows:

- It calls `initialize` once.
- It repeats `prologue`/`run`/`epilogue` until the remainder reaches zero.
- It calls `finalize` once.
- It times every `run` call with three stopwatches: wall time, thread CPU
  time, and rusage-style user/system CPU usage.

With two or more threads, every thread id runs the same remainder loop.
The per-thread CPU figures are then summed. A registry (`Runner`, in
`src/runner.cpp` and in the older header-only `benchmark.hpp`) does three
things:

- It runs every registered entry and thread-count variant in registration
  order.
- It prints a "running" line for each.
- It prints a report whose baseline is the first entry's first result.

Around this core sit a command-line tokenizer with a `bindArg` helper, an
xorshift64* generator, truncating `std::chrono` conversions, and factories
that build one of several derived types by consulting a selector. One
concrete fixture pair, `Malloc` and `Free` in `examples/malloc.cpp`, is
modelled as a real client of the remainder contract.

## How the code is modelled

The project has one Dafny module per source component:

| module | file | models |
|---|---|---|
| `Machine` | machine.dfy | `uint64_t`/`unsigned` wrap-around, C++ truncating `/`, sums |
| `Decimal` | decimal.dfy | decimal digit strings (integer output and `from_chars`) |
| `Stopwatch` | stopwatch.dfy | `Stopwatch<Provider>`, generic over its unit |
| `CpuTime` | cputime.dfy | `CpuUsage` arithmetic and the provider integer arithmetic |
| `Chrono` | chrono.dfy | `ns`, `us`, `ms` |
| `Random` | random.dfy | `Random` |
| `CmdLine` | cmdline.dfy | `CmdLine` |
| `Util` | util.dfy | selector-driven `AnyObject`, `bindArg` |
| `LegacyUtil` | legacy_util.dfy | `Random`-driven `AnyObject` |
| `Fixture` | fixture.dfy | the fixture hooks as a record of pure functions over a state |
| `Engine` | engine.dfy | the single-threaded and multi-threaded `run` |
| `Runner` | runner.dfy | `Runner::run` and its print helpers |
| `LegacyRunner` | legacy_runner.dfy | `run(threads, work, it)`, `Runner::add` and `Runner::run` |
| `MallocBench` | malloc.dfy | the `Malloc` and `Free` fixtures |

Modelling choices:

- **Clocks.** A clock provider is a stream of readings, `nat -> U`. The
  engine's clocks are passed in as a `Clocks` record. Reading `2k` starts
  cycle `k` and reading `2k+1` stops it.
- **Fixtures.** A fixture is a record of pure functions over a state type
  `S`. `run` returns the new state together with the remainder. The engine
  returns the final state, the `Data` record and the trace of hook calls it
  made.
- **Termination.** The engine requires `Progress`: `run` returns less than
  any positive count it is given. This is sufficient for the source's
  `while (iterations)` loop to end, but not necessary (see "## Left out").
- **Stateful callables.** A `BoolSource` selector and an `enumerate`
  callback may keep state between calls. Each is modelled as the answers
  it gives, indexed by the number of the call.
- **Threads.** Each thread runs its remainder loop on its own. The model
  composes the per-thread loops one after another in thread-id order. This
  is one admissible serialisation of the shared fixture state.
- **Shared wall stopwatch.** The first thread to become active starts it
  and the last active one stops it. It is therefore started and stopped
  once per *busy period*, which is any span in which at least one worker
  is active. The number of busy periods is a scheduling parameter `busy`,
  between 1 and the thread count.
- **Runner output.** A runner's printed output is a sequence of `Event`s:
  the caption, running lines, header, name headers, rows and footer. A row
  keeps only the integer columns.
- **Executing a variant.** The runner receives it as a function from
  (world, entry index, threads, iterations) to (world, result). This is
  what `::Benchmark::run` is, as seen from the runner.
- **Fixed-width integers.** `uint64_t` and `unsigned` values are the subset
  types `u64` and `u32`. Wrap-around is written out with `ToU64`/`ToU32`
  wherever the source can overflow. The bit operations of the generator
  use `bv64`.
- **`std::exit`.** The `std::exit` in `bindArg` becomes the `Exit` outcome.
  The `NotFound`, `Invalid` and `Ok` outcomes of `CmdLine::get` are an
  enumeration.

Where the code does something its own comments, help texts or neighbouring
code do not lead one to expect, the model follows the code:

- **Repeated flags.** Nothing in the code rejects a flag given twice. Its
  `get` uses `find_if`, so the first occurrence wins
  (`CmdLine.FirstOccurrenceWins`).
- **Wall time.** The comments at `src/run.cpp:103` and `src/run.cpp:126`
  say that the first started thread starts the global timer and the last
  active thread stops it. The atomic counter can, however, return to zero
  while other workers have not started yet. The next worker then restarts
  the stopwatch, so wall time is the sum of the busy periods
  (`Engine.RunThreads`, `LegacyRunner.Timed`). It is one span from the
  first start to the last stop only when there is one busy period.
- **`-a` flag.** The help text at `examples/malloc.cpp:168-173` says `-a`
  must be a positive integer. The code only checks that the value parses,
  so `-a 0` is bound (`MallocBench.ZeroAllocationsAccepted`). Every pass
  still finishes, but `run` hands back its whole count, so the engine's
  loop never ends (`MallocBench.ZeroAllocationsStall`).
- **Per-op column.** In the older runner the per-op column is wall time
  divided by the iteration count in integer arithmetic. The caption
  handles a zero iteration count, but the report then divides by zero.
  This is the third row of "## Findings".

## Model

| member | source | states |
|---|---|---|
| Stopwatch.New | benchmark/stopwatch.hpp:35-38 | a fresh stopwatch has a zero total and a zero start reading |
| Stopwatch.Start | benchmark/stopwatch.hpp:18-21 | `start` records the current reading and leaves the accumulated total unchanged |
| Stopwatch.Stop | benchmark/stopwatch.hpp:23-28 | `stop` returns the current reading minus the last start reading, adds exactly that delta to the total, and keeps the start reading |
| Stopwatch.Cycles | benchmark/stopwatch.hpp:18-28 | n start/stop cycles return one delta per cycle, each the stop reading minus that cycle's start reading; afterwards the start reading is the last cycle's |
| Stopwatch.CyclesAccumulate | benchmark/stopwatch.hpp:25-32 | for any unit, after any number of cycles `value()` is the initial total plus all returned deltas |
| Stopwatch.ValueIsSumOfDeltas | benchmark/stopwatch.hpp:25-32 | for integer units, `value()` equals the initial total plus the sum of the returned deltas |
| Stopwatch.FreshValueIsSumOfSpans | benchmark/stopwatch.hpp:30-38 | a fresh stopwatch's `value()` after n cycles is the sum of the n deltas |
| Stopwatch.LatestStartWins | benchmark/stopwatch.hpp:18-21 | a second `start` before `stop` overrides the first: only the latest start is measured from |
| CpuTime.Zero | benchmark/cputime.hpp:68-71 | a default `CpuUsage` has zero user and zero system time |
| CpuTime.MinusUndoesPlus | benchmark/cputime.hpp:85-105 | the component-wise operators invert each other: (a + b) - b == a and (a - b) + b == a |
| CpuTime.PlusCommutes | benchmark/cputime.hpp:85-94 | `+` is commutative |
| CpuTime.PlusAssociates | benchmark/cputime.hpp:85-94 | `+` is associative, so the order of per-thread summation does not matter |
| CpuTime.ZeroIsNeutral | benchmark/cputime.hpp:68-94 | the default usage is a neutral element of `+` on both sides |
| CpuTime.SumUsageComponents | benchmark/cputime.hpp:73-77 | summing usages with `+=` sums the user parts and the system parts independently |
| CpuTime.UsageValueIsSumOfDeltas | benchmark/cputime.hpp:62-106 | a stopwatch over `CpuUsage` totals its initial value plus the sum of the returned usage deltas |
| CpuTime.CombineExact | benchmark/cputime.hpp:124-130 | seconds times the scale plus the fraction is exact when it fits in 63 bits |
| CpuTime.TimespecExact | benchmark/cputime.hpp:25-33 | the thread CPU clock value is tv_sec * 10^9 + tv_nsec nanoseconds when in range |
| CpuTime.TimevalExact | benchmark/cputime.hpp:119-136 | the rusage values are tv_sec * 10^6 + tv_usec microseconds when in range, whatever the comment says |
| CpuTime.TimespecWraps | benchmark/cputime.hpp:29-32 | every clock value from 2^63 ns up to 2^64 ns reads back as the true count minus 2^64, a negative number |
| Chrono.NsOfNanoseconds | benchmark/chrono.hpp:11-17 | `ns` of a nanosecond duration is its count |
| Chrono.MsOfMicroseconds | benchmark/chrono.hpp:27-33 | `ms` of a non-negative microsecond count d is the floor of d / 1000 |
| Chrono.NegativeTruncatesTowardZero | benchmark/chrono.hpp:27-33 | for every negative microsecond count `duration_cast` truncates toward zero (-1500 us is -1 ms), and `ms` returns 2^64 minus the truncated magnitude, or 0 above -1000 us |
| Chrono.UsThenMs | benchmark/chrono.hpp:19-33 | `ms` after `us` equals `ms` directly, which is the floor of x / 10^6 for x >= 0 ns |
| Chrono.ConversionsAreMonotone | benchmark/chrono.hpp:11-33 | a <= b implies conv(a) <= conv(b) for non-negative inputs whose result fits |
| Random.Make | random.hpp:16-18 | the constructed state (seed << 1) \| 1 is odd, hence non-zero |
| Random.ShuffleKeepsNonZero | random.hpp:22-26 | the three xorshift steps map a non-zero state to a non-zero state |
| Random.NeverZero | random.hpp:20-28 | from a non-zero state, no number of steps reaches the zero state |
| Random.SeededNeverZero | random.hpp:16-28 | a seeded generator never reaches the zero state |
| Random.TopSeedBitIgnored | random.hpp:16-18 | seeds differing only in bit 63 yield the same generator and the same outputs |
| Random.BoundedAsWritten | random.hpp:30-36 | the bounded draw as written fails (divides by zero) exactly when max is UINT64_MAX |
| Random.BoundedAsWrittenDividesByZero | random.hpp:30-36 | `operator()(UINT64_MAX)` computes a remainder modulo zero |
| Random.Bounded | random.hpp:30-36 | the bounded draw advances the generator once and returns a value in [0, max]; it agrees with the source wherever the source is defined |
| CmdLine.FlushTexts | include/benchmark/cmdline.hpp:22-31 | flushing stores the pending pair only if its name or value is non-empty |
| CmdLine.ScanKeepsTexts | include/benchmark/cmdline.hpp:34-54 | scanning loses and invents no token: the stored names and values are the pending ones followed by the non-empty tokens, in order |
| CmdLine.TokenizeKeepsArguments | include/benchmark/cmdline.hpp:18-57 | the stored pairs hold exactly the non-empty arguments after argv[0], in order |
| CmdLine.ScanWellFormed | include/benchmark/cmdline.hpp:41-53 | every stored name is empty or starts with '-', every value is empty or does not, and no pair is empty |
| CmdLine.TokenizeWellFormed | include/benchmark/cmdline.hpp:18-57 | every pair of a tokenized command line is well formed |
| CmdLine.ScanSkipsEmpty | include/benchmark/cmdline.hpp:36-38 | empty arguments have no effect on the result |
| CmdLine.TokenizeIgnoresExeAndEmpty | include/benchmark/cmdline.hpp:34-38 | argv[0] and empty arguments never influence the pairs |
| CmdLine.TokenizeExamples | include/benchmark/cmdline.hpp:41-56 | a dash token closes the pending pair, a second bare value is stored unnamed, and a trailing flag is stored with an empty value |
| CmdLine.TokenizePaired | include/benchmark/cmdline.hpp:41-56 | a dash token takes the bare token after it as its value: no stored pair with an empty value is directly followed by one with an empty name, for every command line |
| CmdLine.FindFirst | include/benchmark/cmdline.hpp:100-107 | the search returns the first index whose name matches, and none iff no pair has that name |
| CmdLine.Get | include/benchmark/cmdline.hpp:95-114 | string `get` never reports Invalid; NotFound iff the name is absent, leaving the output untouched; otherwise the value of the first matching pair |
| CmdLine.Contains | include/benchmark/cmdline.hpp:116-122 | `contains` holds iff some stored pair has the name |
| CmdLine.FirstOccurrenceWins | include/benchmark/cmdline.hpp:100-113 | with a flag given twice, `get` returns the first value |
| CmdLine.FromChars | include/benchmark/cmdline.hpp:133-137 | `from_chars` fails with no digits at the start, otherwise reads the longest digit prefix, and reports out of range when that exceeds the target maximum |
| CmdLine.GetInt | include/benchmark/cmdline.hpp:124-143 | integral `get`: NotFound iff absent; Ok iff the first value starts with an in-range number, which is stored; the output is untouched otherwise |
| CmdLine.GetIntRoundTrip | include/benchmark/cmdline.hpp:124-143 | a value printed in decimal and read back with integral `get` gives the original number |
| CmdLine.GetIntExamples | include/benchmark/cmdline.hpp:128-142 | "12abc" is Ok 12; an empty value, "abc" and an out-of-range number are Invalid; an absent name is NotFound |
| CmdLine.Enumerate | include/benchmark/cmdline.hpp:59-70 | `enumerate` visits a prefix of the pairs, hands the k-th pair to the callback's k-th call, and stops right after the first call that returns false; it visits all pairs when none does |
| CmdLine.StopsAtDeclinedCall | include/benchmark/cmdline.hpp:63-69 | a callback that declines its n-th call, whatever pair it gets, stops `enumerate` after at most n + 1 pairs |
| CmdLine.EnumerateNamedIsFiltered | include/benchmark/cmdline.hpp:72-86 | the named `enumerate` is `enumerate` over just the pairs with that name, with the callback's calls numbered the same way |
| Util.Choose | include/benchmark/util.hpp:89-103 | `make` with k types picks type i < k-1 only when the i-th selector call is the first true one, and the last type only after k-1 false calls; with one type it builds `Derived` without a call |
| Util.ChooseCallsBounded | include/benchmark/util.hpp:56-64 | one `make` consults the selector at most k-1 times; the single-type `make` never does |
| Util.LastTypeOnlyIfAllDeclined | include/benchmark/util.hpp:111-122 | the last type is chosen iff every earlier selector call returned false |
| Util.Push | include/benchmark/util.hpp:105-123 | `push` appends exactly one element and keeps the existing ones; the element is the first type whose selector call answers true, or the last type after k-1 false answers, and the call count advances by the calls made |
| Util.Fill | include/benchmark/util.hpp:125-140 | `fill(n)` appends exactly n elements, keeps the existing ones, and consumes at most n(k-1) selector calls |
| Util.AlwaysTrueBuildsDerived | include/benchmark/util.hpp:105-140 | with an always-true selector, `fill` builds only `Derived`, with one selector call per element |
| Util.BindArg | include/benchmark/util.hpp:144-162 | `bindArg` binds iff integral `get` is Ok, and then to the number parsed from the flag's first value; it is Unbound with the variable unchanged iff the flag is absent, and otherwise exits with the help text |
| Util.BindArgAcceptsZero | examples/malloc.cpp:168-173 | `-a 0` is bound although the help text asks for a positive integer |
| LegacyUtil.Push | benchmark/util.hpp:85-94 | the older `push` appends at most one element and keeps the existing ones; it appends type j exactly when the first j draws are odd and draw j + 1 is even, having advanced the generator j + 1 steps, and appends nothing after k odd draws |
| LegacyUtil.PushFirstDraw | benchmark/util.hpp:47-54 | an even first draw appends `Derived`; with one type an odd draw appends nothing |
| LegacyUtil.Fill | benchmark/util.hpp:96-103 | `fill(n)` grows the objects by at most n and keeps the existing ones |
| LegacyUtil.One | benchmark/util.hpp:56-61 | `one()` on a non-empty pool advances the generator one step and returns the object at the index of that draw modulo the pool size; the pool is unchanged |
| LegacyUtil.Clear | benchmark/util.hpp:63-66 | `clear()` leaves no objects |
| Fixture.WithRun | include/benchmark/fixture.hpp:27-31 | a fixture that defines only `run` has hooks that leave its state unchanged |
| Fixture.SimpleFixture | include/benchmark/fixture.hpp:58-61 | a wrapped callable returns exactly what the callable returns, and its other hooks do nothing |
| Engine.LoopIsChained | src/run.cpp:29-44 | the loop's passes form a chain: the first requests the full count, each next pass requests the previous remainder, and the last remainder is 0; no pass for a zero count |
| Engine.LoopStep | src/run.cpp:29-44 | one pass is prologue, run on the remaining count, epilogue, continued from `run`'s remainder |
| Engine.Calls | src/run.cpp:29-44 | each pass issues three hook calls with the loop's thread id and never `initialize` or `finalize` |
| Engine.ConsumedSumsToStart | src/run.cpp:29-44 | the counts consumed by the passes add up to exactly the requested iterations |
| Engine.ChunkedRunCount | src/run.cpp:29-44 | a fixture consuming up to c iterations per call takes ceil(iterations / c) passes |
| Engine.SingleLoop | src/run.cpp:29-44 | the loop's state and calls are those of the reference loop; each stopwatch totals exactly the `run` spans, one per pass |
| Engine.RunSingle | src/run.cpp:18-54 | `initialize(1)` first, `finalize` last, only pass calls between; a zero count makes no pass and zero times; the result has one thread |
| Engine.WorkerLoop | src/run.cpp:110-124 | a worker runs the reference loop with its own thread id and times each `run` on its own CPU clocks |
| Engine.Workers | src/run.cpp:82-133 | thread ids 0..threads-1 each run the loop in turn over the shared state; their calls are concatenated in id order |
| Engine.CpuTotals | src/run.cpp:149-155 | thread t's CPU time is the span total of its own loop on its own clock |
| Engine.UsageTotals | src/run.cpp:149-155 | thread t's CPU usage is the usage total of its own loop on its own clock |
| Engine.Total | src/run.cpp:149-155 | the aggregated CPU time and usage are the sums over all threads |
| Engine.BusyPeriods | src/run.cpp:104-130 | the shared wall stopwatch totals one span per busy period |
| Engine.RunThreads | src/run.cpp:57-163 | fewer than two threads is exactly the single-threaded run; otherwise `initialize(threads)`, all workers' calls, `finalize`, and the wall, CPU-time and CPU-usage totals; one busy period gives the first-to-last span |
| Runner.Slots | src/runner.cpp:139-145 | the schedule for the first k entries names only existing (entry, variant) pairs of those entries |
| Runner.SlotsCover | src/runner.cpp:139-145 | every (entry, variant) pair is scheduled iff it exists |
| Runner.SlotsInOrder | src/runner.cpp:139-145 | the schedule is in entry order, then variant order |
| Runner.VariantRuns | src/runner.cpp:142-153 | one result per variant of the entry |
| Runner.Execution | src/runner.cpp:139-154 | the result table has one row per entry, each as long as that entry's variant list |
| Runner.ExecutionFollowsSchedule | src/runner.cpp:139-154 | result `data[i][v]` is what executing the schedule produces at (i, v), threading the world through in schedule order |
| Runner.CaptionText | src/runner.cpp:11-22 | the caption is the name; for a positive iteration count it continues with " (", a decimal number that reads back as the count, and " iterations)" |
| Runner.RunningLabelShowsPosition | src/runner.cpp:36-40 | the running line of variant 0 starts with '#' followed by the decimal 1-based entry position |
| Runner.RunningLabelDittoForLaterVariants | src/runner.cpp:41-47 | later variants print a ditto mark, with no thread suffix for one thread |
| Runner.Underline | src/runner.cpp:69-75 | the name underline is min(name length, width - 6) in unsigned arithmetic: width - 6 when the name is at least that long, the whole name otherwise |
| Runner.NarrowTerminalUnderlinesWholeName | src/runner.cpp:72-75 | a terminal narrower than 6 columns wraps width - 6 and underlines the whole name |
| Runner.ResultEvents | src/runner.cpp:52-118 | variant 0 is preceded by the entry's name header with an underline no longer than the name; every row carries its thread count, its wall time truncated to whole microseconds, and the first entry's first wall time as baseline |
| Runner.SystemColumnOnlyWhenPositive | src/runner.cpp:110-115 | the system column is printed iff the millisecond value is positive, and then shows that value |
| Runner.RunLogFollowsSlots | src/runner.cpp:144-153 | the j-th scheduled slot prints its running line and then executes |
| Runner.RunVariants | src/runner.cpp:142-153 | running one entry executes its variants in order and extends the log by their running lines and executions |
| Runner.Report | src/runner.cpp:158-166 | results are printed for every scheduled slot in schedule order |
| Runner.Run | src/runner.cpp:132-169 | `run` prints only the caption for an empty registry; otherwise it executes everything in schedule order before the header, then prints results and the footer |
| LegacyRunner.Elapsed | benchmark.hpp:108-122 | the shared wall stopwatch over n cycles totals the n spans; one cycle gives one span |
| LegacyRunner.Spent | benchmark.hpp:108-122 | the shared CPU-usage stopwatch over n cycles totals the n usage deltas |
| LegacyRunner.Timed | benchmark.hpp:44-144 | the timings are the sums over one cycle (single path) or one cycle per busy period (threaded path) |
| LegacyRunner.FewThreadsRunOnce | benchmark.hpp:73-74 | zero or one thread is the single-threaded run: the work runs once |
| LegacyRunner.EveryWorkerRuns | benchmark.hpp:87-125 | with two or more threads every worker performs the whole work: the world left is that of `threads` single-threaded runs in a row |
| LegacyRunner.EntryOf | benchmark.hpp:156-181 | the named `add` makes a grouped entry; the anonymous one makes an ungrouped entry with an empty name |
| LegacyRunner.RegisterKeepsOrder | benchmark.hpp:156-181 | `add` appends: existing entries are kept and new ones follow in call order |
| LegacyRunner.LabelIsLatestGroup | benchmark.hpp:198-204 | an entry's label is the name of the latest group entry at or before it, or empty if there is none |
| LegacyRunner.RunningLineShowsPosition | benchmark.hpp:206-207 | the running line starts with '#' followed by the decimal 1-based entry position |
| LegacyRunner.RunLogInOrder | benchmark.hpp:201-221 | entry k prints its running line and then executes, in insertion order |
| LegacyRunner.PerOp | benchmark.hpp:247-248 | the printed per-op figure is the quotient of `du / m_iterations` where that division is defined, and absent exactly for a zero count |
| LegacyRunner.Divide | benchmark.hpp:247-248 | `du / m_iterations` as written: a division by zero exactly when the count is 0, otherwise the truncated unsigned quotient |
| LegacyRunner.ZeroIterationsDivideByZero | benchmark.hpp:186-189 | a registry with entries and zero iterations gets a caption without a count, yet its first report row divides by zero |
| LegacyRunner.ZeroIterationsOmitPerOp | benchmark.hpp:232-283 | in the corrected report, zero iterations leave every row without a per-op figure, so nothing is divided by zero |
| LegacyRunner.EntryReport | benchmark.hpp:234-281 | a separator precedes the first and every grouped row; a group header iff grouped; the baseline is the first entry's time |
| LegacyRunner.ExecuteAll | benchmark.hpp:198-221 | every entry executes once, in order, logging its running line first |
| LegacyRunner.Report | benchmark.hpp:232-283 | the report holds each entry's rows in insertion order |
| LegacyRunner.Run | benchmark.hpp:183-284 | an empty registry prints only the caption; otherwise all executions, then header, report and closing line (the report as corrected for a zero count, see "## Findings") |
| MallocBench.Pattern | examples/malloc.cpp:177-178 | the size pattern has ten sizes |
| MallocBench.NewThreadData | examples/malloc.cpp:41-51 | a new thread record starts both cursors at 0 and holds allocCount null slots |
| MallocBench.Initialize | examples/malloc.cpp:24-33 | `initialize(t)` appends t fresh thread records and keeps the existing ones |
| MallocBench.Finalize | examples/malloc.cpp:35-38 | `finalize` removes all thread records |
| MallocBench.EachVariantSeesItsThreads | examples/malloc.cpp:24-38 | after the previous variant's `finalize`, `initialize(t)` leaves exactly t well-formed records |
| MallocBench.Advance | examples/malloc.cpp:83-85 | the size cursor stays below the number of sizes |
| MallocBench.AdvanceCycles | examples/malloc.cpp:83-87 | the size cursor steps through the pattern cyclically |
| MallocBench.Allocate | examples/malloc.cpp:81-89 | allocating n blocks fills slots 0..n-1 with the next n pattern sizes, moves the cursor n steps round the pattern, and leaves other slots alone |
| MallocBench.MallocRun | examples/malloc.cpp:70-92 | `Malloc::run(I)` allocates min(I, allocCount) slots of its own thread only and returns I - min(I, allocCount) |
| MallocBench.MallocEpilogue | examples/malloc.cpp:94-102 | the epilogue nulls every slot of its own thread and touches no other thread |
| MallocBench.MallocFixture | examples/malloc.cpp:59-104 | the `Malloc` fixture's `run` returns the count minus up to allocCount |
| MallocBench.MallocProgress | examples/malloc.cpp:75-91 | with allocCount > 0 every `run` strictly reduces a positive count |
| MallocBench.MallocPasses | examples/malloc.cpp:75-91 | the engine makes ceil(iterations / allocCount) passes |
| MallocBench.ZeroAllocationsStall | examples/malloc.cpp:75-91 | with allocCount == 0 `run` returns its count unchanged, so the engine loop could never end |
| MallocBench.ZeroAllocationsAccepted | examples/malloc.cpp:168-173 | `-a 0` passes `bindArg` and builds a fixture that cannot progress |
| MallocBench.MallocLoopStaysInBounds | examples/malloc.cpp:75-102 | from well-formed records with one for the thread, the engine's loop over `Malloc` is the guarded loop of `MallocRun` and `MallocEpilogue`: `m_td[tid]` is always in bounds and the fallback never runs |
| MallocBench.MallocVariantInBounds | examples/malloc.cpp:24-102 | after `finalize` and `initialize(t)`, every tid below t runs `Malloc` in bounds |
| MallocBench.FreePrologue | examples/malloc.cpp:118-131 | `Free::prologue` fills all allocCount slots of its own thread |
| MallocBench.Release | examples/malloc.cpp:139-147 | the freeing loop nulls min(I, remaining) slots from the front and returns the rest of I; I == 0 nulls all and wraps below zero |
| MallocBench.FreeRun | examples/malloc.cpp:133-148 | `Free::run(I >= 1)` returns I - min(I, slot count) and only touches its own thread |
| MallocBench.FreeRunAtZeroWraps | examples/malloc.cpp:139-147 | `Free::run(0)` returns 2^64 minus the slot count |
| MallocBench.FreePass | examples/malloc.cpp:118-148 | one `Free` pass as written returns the count minus up to allocCount |
| MallocBench.FreeLastPassLeaks | examples/malloc.cpp:133-148 | a last pass with 0 < I < allocCount finishes the loop while slots I.. still hold blocks, and `finalize` drops them unfreed |
| MallocBench.ReleaseAll | examples/malloc.cpp:94-102 | releasing nulls every slot of its own thread and touches no other thread |
| MallocBench.FreeFixture | examples/malloc.cpp:107-149 | the corrected `Free` fixture's `run` returns the count minus up to allocCount |
| MallocBench.FreeFixtureLeavesNothing | examples/malloc.cpp:118-148 | with the corrected epilogue, every pass ends with all its thread's slots freed |
| MallocBench.FreePasses | examples/malloc.cpp:133-148 | the corrected `Free` fixture makes ceil(iterations / allocCount) passes |
| MallocBench.FreeLoopStaysInBounds | examples/malloc.cpp:118-148 | from well-formed records with one for the thread, the engine's loop over the corrected `Free` is the guarded loop of `FreePass` and `ReleaseAll`, never the fallback |
| MallocBench.FreeVariantInBounds | examples/malloc.cpp:24-148 | after `finalize` and `initialize(t)`, every tid below t runs the corrected `Free` in bounds |

## Left out

- Thread orchestration is not modelled. This covers the condition-variable
  start gate, thread spawn and join, and the atomic active-worker counter.
  The model serialises the workers in thread-id order and takes the number
  of busy periods as a parameter.
- OS clocks (`clock_gettime`, `getrusage`, `steady_clock`) are not modelled.
  They appear only as streams of readings. The providers' integer
  arithmetic is kept in `CpuTime`.
- The `Unit`/`Value` name mismatch is not modelled. The stopwatch reads
  `Provider::Unit`, while the providers in `benchmark/cputime.hpp` and
  `benchmark/timestamp.hpp` declare `Value`. The model takes the two to be
  the same type.
- The older runner's CPU-usage meter is not part of this model. It is used
  through `start`, `stop`, `value` and a `Times` type. The model takes it
  to be a stopwatch over `CpuUsage`, like the one in `src/run.cpp`.
- Terminal output is not modelled: width detection, `line`, locale
  grouping, stream formatting and column widths. Width is a parameter, and
  a line is an event carrying only the lengths the code computes.
- Floating-point columns are left out: op per ns, percentage, `std::round`
  and `setprecision`. Only the integer columns are in the rows.
- `tid()` is not modelled because it is an OS call.
- `std::malloc` and `std::free` are opaque `Block`/`Null` handles.
  Allocation never fails in the model.
- The payload benchmarks are not modelled: atomics, reference counting,
  calls, throw and rtti. Their point is mechanisms a verifier cannot
  measure.
- Random.Bounded: only `uint64_t` bounds are modelled, and no caller in
  the sources uses the bounded draw. For `unsigned` (`uint32_t`) bounds
  `max + 1` wraps to 0 at `UINT_MAX` the same way, so the division by zero
  is the same. For signed bounds such as `int` or `int64_t`, `max + 1` at
  the type's maximum is signed overflow, which is undefined. Only types
  narrower than `int` are promoted and do not wrap.
- CmdLine.FromChars: only the unsigned targets the callers use are
  modelled, so a leading '-' is no digit. Signed targets are not modelled.
- Engine.RunThreads: a single serialisation in thread-id order is proved.
  Other interleavings of fixture state shared between threads are not.
- Engine.RunThreads: the fixture must satisfy `Progress`, which is
  sufficient for the source's loop to end but not necessary. Fixtures
  whose `run` sometimes returns its count unchanged, or more than it was
  given, and still reaches 0 do terminate in the source. The model says
  nothing about them. `Progress` holds for every concrete fixture here
  with a positive allocation count.
- Engine.RunSingle, Engine.SingleLoop, Engine.WorkerLoop, Engine.Workers:
  these require `Progress` too, for the same reason and with the same
  gap as `Engine.RunThreads`.
- MallocBench.MallocRun: on an ill-formed state, such as a missing thread
  record or a config without sizes, `MallocFixture` returns the state
  unchanged with the same remainder. The source has undefined behaviour
  there. `MallocLoopStaysInBounds` shows the engine never reaches that
  state from what `initialize` builds.
- MallocBench.FreeRun: on an ill-formed state `FreeFixture` returns the
  state unchanged. The source has undefined behaviour there.
  `FreeLoopStaysInBounds` shows the engine never reaches that state.
- LegacyRunner.Run: for a registry with entries and zero iterations the
  source divides by zero on the first report row. Its contract describes
  the corrected report, with no per-op figure, not undefined behaviour.
- Fixture.SimpleFixture: the wrapped `work` is a pure function of the
  count and thread id. A `std::function` may carry state of its own, which
  the model can only express through the fixture state.
- CpuTime.Zero: `CpuUsage` parts and `Duration` counts are unbounded
  integers, while the source stores them as 64-bit signed tick counts.
  Overflow of their sums is not modelled, and neither is overflow of the
  product when `duration_cast` converts to a finer unit. That overflow is
  undefined in the source. No modelled call converts to a finer unit. The
  conversions into `uint64_t` are modelled.
- Chrono.ConversionsAreMonotone: the result must fit `uint64_t`, not the
  signed 64-bit count. Casting to a finer unit with a product of 2^63 or
  more is therefore accepted here, though it overflows in the source.
- Runner.Run: the first entry must have at least one variant. The source
  reads `data.front()` of it otherwise, which is undefined.
- Runner.Underline: the `unsigned` underline length is passed on as an
  `int` column count. That conversion is not modelled.
- Runner.Underline: names are sequences of characters, and their length
  is counted in characters. The source's `name.length()` counts the UTF-8
  bytes of a `std::string`, so the two agree only on ASCII names. For
  "µs" the source underlines 3 columns and the model 2.
  Runner.ResultEvents and Runner.NarrowTerminalUnderlinesWholeName share
  this gap, as do the lengths of all other strings in the model.
- The older runner's name header uses `width - 3` columns. That length is
  kept as an integer and not checked against the terminal.

## Findings

| source | as written | input that shows it | evidently intended | confidence | as-written member | corrected member |
|---|---|---|---|---|---|---|
| random.hpp:30-36 | the bounded draw takes the raw output modulo `max + 1`, which wraps to 0 for the largest 64-bit bound | `max = 18446744073709551615` | a value in [0, max], i.e. any output when every value is allowed | not executed | Random.BoundedAsWritten | Random.Bounded |
| examples/malloc.cpp:133-148 | `Free::run` frees only the first I slots when I < allocCount, and nothing frees the rest before `finalize` discards the records | the defaults, 1000000 iterations with 10240 allocations: the last pass frees 6720 blocks and leaks 3520 per thread | every block a `Free` prologue allocates is freed by the end of its pass | not executed | MallocBench.FreeLastPassLeaks | MallocBench.FreeFixtureLeavesNothing |
| benchmark.hpp:247-248 | the report prints `du / m_iterations` for every row, although the caption (lines 188-189) treats a zero iteration count as valid | a registry with one entry constructed with 0 iterations | no per-op figure when there is no iteration count | not executed | LegacyRunner.ZeroIterationsDivideByZero | LegacyRunner.ZeroIterationsOmitPerOp |

=== FILE: chrono.dfy ===
/**
 * The `ns`, `us` and `ms` helpers: `std::chrono::duration_cast` of a tick
 * count to nanoseconds, microseconds or milliseconds, returned as
 * `std::uint64_t`. Casting to a coarser unit divides and truncates toward
 * zero (section [time.duration.cast] of ISO/IEC 14882:2020); casting to a finer
 * one multiplies.
 */
module Chrono {
  import opened Machine

  datatype Period = Nanoseconds | Microseconds | Milliseconds

  /** Length of one tick of the period, in nanoseconds. */
  function NanosPerTick(p: Period): (n: nat)
    ensures n > 0
  {
    match p
    case Nanoseconds => 1
    case Microseconds => 1_000
    case Milliseconds => 1_000_000
  }

  /** A `std::chrono::duration` with a signed 64-bit tick count. */
  datatype Duration = Duration(count: int, period: Period)

  /** `duration_cast<To>(d).count()`. */
  function Cast(d: Duration, to: Period): int
  {
    var from := NanosPerTick(d.period);
    var target := NanosPerTick(to);
    if from >= target then d.count * (from / target) else TruncDiv(d.count, target / from)
  }

  function Ns(d: Duration): u64
  {
    ToU64(Cast(d, Nanoseconds))
  }

  function Us(d: Duration): u64
  {
    ToU64(Cast(d, Microseconds))
  }

  function Ms(d: Duration): u64
  {
    ToU64(Cast(d, Milliseconds))
  }

  /** `ns` of a nanosecond duration is its own (non-negative) count. */
  lemma NsOfNanoseconds(count: int)
    requires 0 <= count < I64_LIMIT
    ensures Ns(Duration(count, Nanoseconds)) == count
  {
  }

  /** `ms` of a non-negative microsecond duration is the count divided by 1000, rounded down. */
  lemma MsOfMicroseconds(count: int)
    requires 0 <= count < I64_LIMIT
    ensures Ms(Duration(count, Microseconds)) * 1000 <= count < Ms(Duration(count, Microseconds)) * 1000 + 1000
  {
    TruncDivBounds(count, 1000);
  }

  /**
   * Truncation, not flooring: a negative microsecond count loses its
   * fraction toward zero (-1500 us is -1 ms), and `ms` returns the
   * negative result wrapped into `std::uint64_t` (2^64 - 1 for -1 ms).
   */
  lemma NegativeTruncatesTowardZero(count: int)
    requires -I64_LIMIT <= count < 0
    ensures Cast(Duration(count, Microseconds), Milliseconds) == -((-count) / 1000)
    ensures Cast(Duration(count, Microseconds), Milliseconds) * 1000 - 1000 < count <= Cast(Duration(count, Microseconds), Milliseconds) * 1000
    ensures count <= -1000 ==> Ms(Duration(count, Microseconds)) == U64_LIMIT - (-count) / 1000
    ensures -1000 < count ==> Ms(Duration(count, Microseconds)) == 0
  {
    TruncDivBounds(count, 1000);
  }

  /** Going through microseconds loses nothing: `ms` of `us` of x ns is x / 10^6. */
  lemma UsThenMs(x: int)
    requires 0 <= x < I64_LIMIT
    ensures Ms(Duration(Us(Duration(x, Nanoseconds)) as int, Microseconds)) == Ms(Duration(x, Nanoseconds))
    ensures Ms(Duration(x, Nanoseconds)) == x / 1_000_000
  {
    var q := x / 1000;
    assert x == q * 1000 + x % 1000;
    assert q == (q / 1000) * 1000 + q % 1000;
  }

  lemma ScaleIsMonotone(a: int, b: int, k: nat)
    requires 0 <= a <= b
    ensures 0 <= a * k <= b * k
  {
  }

  lemma OneMoreMultiple(q: int, k: nat)
    ensures (q + 1) * k == q * k + k
  {
  }

  lemma QuotientIsMonotone(a: int, b: int, k: nat)
    requires 0 <= a <= b && k > 0
    ensures 0 <= a / k <= b / k
  {
    var qa := a / k;
    var qb := b / k;
    assert a == qa * k + a % k && 0 <= a % k < k;
    assert b == qb * k + b % k && 0 <= b % k < k;
    if qa > qb {
      ScaleIsMonotone(qb + 1, qa, k);
      OneMoreMultiple(qb, k);
    }
  }

  /** Each of `ns`, `us`, `ms` is monotone on non-negative counts of the same unit while the exact result fits. */
  lemma ConversionsAreMonotone(a: int, b: int, from: Period, to: Period)
    requires 0 <= a <= b
    requires 0 <= Cast(Duration(b, from), to) < U64_LIMIT
    ensures ToU64(Cast(Duration(a, from), to)) <= ToU64(Cast(Duration(b, from), to))
  {
    var f := NanosPerTick(from);
    var t := NanosPerTick(to);
    var ca := Cast(Duration(a, from), to);
    var cb := Cast(Duration(b, from), to);
    if f >= t {
      ScaleIsMonotone(a, b, f / t);
      assert ca == a * (f / t) && cb == b * (f / t);
    } else {
      QuotientIsMonotone(a, b, t / f);
      assert ca == a / (t / f) && cb == b / (t / f);
    }
    assert 0 <= ca <= cb < U64_LIMIT;
  }
}

=== FILE: cmdline.dfy ===
/**
 * `CmdLine`: splits `argv` into (name, value) pairs, looks pairs up by name
 * (first occurrence wins) and reads integers with `std::from_chars`.
 */
module CmdLine {
  import opened Machine
  import Decimal

  /** One stored pair; either half may be empty, never both. */
  datatype Arg = Arg(name: string, value: string)

  datatype ArgType = NotFound | Invalid | Ok

  // ---------------------------------------------------------------------
  // Tokenizer (the constructor)
  // ---------------------------------------------------------------------

  /** `pushCurrent`: stores the pending pair when either half is non-empty. */
  function Flush(args: seq<Arg>, name: string, value: string): seq<Arg>
  {
    if name != "" || value != "" then args + [Arg(name, value)] else args
  }

  /** The constructor's loop over the arguments after the executable name, then the final flush. */
  function Scan(tokens: seq<string>, name: string, value: string, args: seq<Arg>): seq<Arg>
    decreases |tokens|
  {
    if |tokens| == 0 then Flush(args, name, value)
    else
      var cur := tokens[0];
      if |cur| == 0 then Scan(tokens[1..], name, value, args)
      else if cur[0] == '-' then Scan(tokens[1..], cur, "", Flush(args, name, value))
      else if value != "" then Scan(tokens[1..], "", cur, Flush(args, name, value))
      else Scan(tokens[1..], name, cur, args)
  }

  /** `CmdLine(argc, argv)`: `argv[0]` is the executable name and is skipped. */
  function Tokenize(argv: seq<string>): seq<Arg>
  {
    if |argv| == 0 then [] else Scan(argv[1..], "", "", [])
  }

  /** The non-empty strings of a sequence, in order. */
  function NonEmpty(ts: seq<string>): (r: seq<string>)
    ensures forall i :: 0 <= i < |r| ==> r[i] != ""
  {
    if |ts| == 0 then [] else if ts[0] == "" then NonEmpty(ts[1..]) else [ts[0]] + NonEmpty(ts[1..])
  }

  /** The non-empty halves of a pair, name first. */
  function Halves(name: string, value: string): seq<string>
  {
    (if name != "" then [name] else []) + (if value != "" then [value] else [])
  }

  /** Every non-empty string stored in the pairs, in order. */
  function Texts(args: seq<Arg>): seq<string>
  {
    if |args| == 0 then [] else Halves(args[0].name, args[0].value) + Texts(args[1..])
  }

  /** A pair as the tokenizer builds it: a dash-led name or none, a value not led by a dash or none, not both empty. */
  predicate WellFormed(a: Arg)
  {
    && (a.name != "" || a.value != "")
    && (a.name == "" || a.name[0] == '-')
    && (a.value == "" || a.value[0] != '-')
  }

  predicate AllWellFormed(args: seq<Arg>)
  {
    forall i :: 0 <= i < |args| ==> WellFormed(args[i])
  }

  lemma {:induction false} TextsAppend(a: seq<Arg>, b: seq<Arg>)
    ensures Texts(a + b) == Texts(a) + Texts(b)
    decreases |a|
  {
    if |a| == 0 {
      assert a + b == b;
    } else {
      assert (a + b)[1..] == a[1..] + b;
      TextsAppend(a[1..], b);
    }
  }

  lemma FlushTexts(args: seq<Arg>, name: string, value: string)
    ensures Texts(Flush(args, name, value)) == Texts(args) + Halves(name, value)
  {
    if name != "" || value != "" {
      TextsAppend(args, [Arg(name, value)]);
      assert Texts([Arg(name, value)]) == Halves(name, value) + Texts([]);
    }
  }

  /** Scanning keeps every non-empty token, in order: nothing is dropped or reordered. */
  lemma {:induction false} ScanKeepsTexts(tokens: seq<string>, name: string, value: string, args: seq<Arg>)
    ensures Texts(Scan(tokens, name, value, args)) == Texts(args) + Halves(name, value) + NonEmpty(tokens)
    decreases |tokens|
  {
    if |tokens| == 0 {
      FlushTexts(args, name, value);
    } else {
      var cur := tokens[0];
      var rest := tokens[1..];
      if |cur| == 0 {
        ScanKeepsTexts(rest, name, value, args);
      } else if cur[0] == '-' {
        ScanKeepsTexts(rest, cur, "", Flush(args, name, value));
        FlushTexts(args, name, value);
      } else if value != "" {
        ScanKeepsTexts(rest, "", cur, Flush(args, name, value));
        FlushTexts(args, name, value);
      } else {
        ScanKeepsTexts(rest, name, cur, args);
      }
    }
  }

  /** The stored pairs hold exactly the non-empty arguments after `argv[0]`, in their original order. */
  lemma TokenizeKeepsArguments(argv: seq<string>)
    requires |argv| > 0
    ensures Texts(Tokenize(argv)) == NonEmpty(argv[1..])
  {
    ScanKeepsTexts(argv[1..], "", "", []);
  }

  /** Every stored pair has a non-empty half, a dash-led name or none, and a value that is not dash-led. */
  lemma {:induction false} ScanWellFormed(tokens: seq<string>, name: string, value: string, args: seq<Arg>)
    requires AllWellFormed(args)
    requires name == "" || name[0] == '-'
    requires value == "" || value[0] != '-'
    ensures AllWellFormed(Scan(tokens, name, value, args))
    decreases |tokens|
  {
    if |tokens| > 0 {
      var cur := tokens[0];
      var rest := tokens[1..];
      if |cur| == 0 {
        ScanWellFormed(rest, name, value, args);
      } else if cur[0] == '-' {
        ScanWellFormed(rest, cur, "", Flush(args, name, value));
      } else if value != "" {
        ScanWellFormed(rest, "", cur, Flush(args, name, value));
      } else {
        ScanWellFormed(rest, name, cur, args);
      }
    }
  }

  lemma TokenizeWellFormed(argv: seq<string>)
    ensures AllWellFormed(Tokenize(argv))
  {
    if |argv| > 0 {
      ScanWellFormed(argv[1..], "", "", []);
    }
  }

  /**
   * The pairing rule: a name is never stored without a value when a bare
   * value follows it. A stored pair with an empty value is never directly
   * followed by one with an empty name, so `-a x` always becomes one pair.
   */
  predicate Paired(args: seq<Arg>)
  {
    forall i :: 0 < i < |args| ==> !(args[i - 1].value == "" && args[i].name == "")
  }

  /** The pending pair can be flushed without breaking the pairing rule. */
  predicate Pending(name: string, value: string, args: seq<Arg>)
  {
    && Paired(args)
    && (name == "" ==> |args| == 0 || args[|args| - 1].value != "")
    && (name == "" && value == "" ==> |args| == 0)
  }

  lemma FlushPaired(args: seq<Arg>, name: string, value: string)
    requires Pending(name, value, args)
    ensures Paired(Flush(args, name, value))
  {
    var r := Flush(args, name, value);
    if name != "" || value != "" {
      assert forall i :: 0 <= i < |args| ==> r[i] == args[i];
    }
  }

  lemma {:induction false} ScanPaired(tokens: seq<string>, name: string, value: string, args: seq<Arg>)
    requires Pending(name, value, args)
    ensures Paired(Scan(tokens, name, value, args))
    decreases |tokens|
  {
    if |tokens| == 0 {
      FlushPaired(args, name, value);
    } else {
      var cur := tokens[0];
      var rest := tokens[1..];
      if |cur| == 0 {
        ScanPaired(rest, name, value, args);
      } else if cur[0] == '-' {
        FlushPaired(args, name, value);
        ScanPaired(rest, cur, "", Flush(args, name, value));
      } else if value != "" {
        FlushPaired(args, name, value);
        ScanPaired(rest, "", cur, Flush(args, name, value));
      } else {
        ScanPaired(rest, name, cur, args);
      }
    }
  }

  /** Every dash-led argument takes the bare argument right after it as its value. */
  lemma TokenizePaired(argv: seq<string>)
    ensures Paired(Tokenize(argv))
  {
    if |argv| > 0 {
      ScanPaired(argv[1..], "", "", []);
    }
  }

  /** Empty arguments are skipped: the pairs are those of the arguments with every empty string removed. */
  lemma {:induction false} ScanSkipsEmpty(tokens: seq<string>, name: string, value: string, args: seq<Arg>)
    ensures Scan(tokens, name, value, args) == Scan(NonEmpty(tokens), name, value, args)
    decreases |tokens|
  {
    if |tokens| > 0 {
      var rest := tokens[1..];
      if tokens[0] == "" {
        ScanSkipsEmpty(rest, name, value, args);
      } else {
        var ne := NonEmpty(tokens);
        assert ne == [tokens[0]] + NonEmpty(rest);
        assert ne[1..] == NonEmpty(rest);
        var cur := tokens[0];
        if cur[0] == '-' {
          ScanSkipsEmpty(rest, cur, "", Flush(args, name, value));
        } else if value != "" {
          ScanSkipsEmpty(rest, "", cur, Flush(args, name, value));
        } else {
          ScanSkipsEmpty(rest, name, cur, args);
        }
      }
    }
  }

  /** `argv[0]` never matters, and neither do empty arguments. */
  lemma TokenizeIgnoresExeAndEmpty(exe: string, other: string, tail: seq<string>)
    ensures Tokenize([exe] + tail) == Tokenize([other] + NonEmpty(tail))
  {
    assert ([exe] + tail)[1..] == tail;
    assert ([other] + NonEmpty(tail))[1..] == NonEmpty(tail);
    ScanSkipsEmpty(tail, "", "", []);
  }

  /** Concrete splits: names keep their dash, a dangling name has an empty value, bare values get empty names. */
  lemma TokenizeExamples()
    ensures Tokenize(["bench", "-n", "5", "-a"]) == [Arg("-n", "5"), Arg("-a", "")]
    ensures Tokenize(["bench", "x", "y", "-n", "", "7"]) == [Arg("", "x"), Arg("", "y"), Arg("-n", "7")]
    ensures Tokenize(["bench", "-n", "-5"]) == [Arg("-n", ""), Arg("-5", "")]
  {
  }

  // ---------------------------------------------------------------------
  // Lookup
  // ---------------------------------------------------------------------

  predicate Has(args: seq<Arg>, name: string)
  {
    exists i :: 0 <= i < |args| && args[i].name == name
  }

  /** `std::find_if` on the name: the index of the first pair with that name. */
  function FindFirst(args: seq<Arg>, name: string): (r: Option<nat>)
    ensures r.Some? ==> r.value < |args| && args[r.value].name == name
    ensures r.Some? ==> forall j :: 0 <= j < r.value ==> args[j].name != name
    ensures r.None? <==> !Has(args, name)
    decreases |args|
  {
    if |args| == 0 then None
    else if args[0].name == name then Some(0)
    else
      match FindFirst(args[1..], name)
      case None => None
      case Some(i) => Some(i + 1)
  }

  /**
   * `get(name, std::string_view&)`: the value of the first pair with that
   * name, or `NotFound` with the output left as it was.
   */
  function Get(args: seq<Arg>, name: string, value: string): (r: (ArgType, string))
    ensures r.0 != Invalid
    ensures r.0 == NotFound <==> !Has(args, name)
    ensures r.0 == NotFound ==> r.1 == value
    ensures r.0 == Ok ==> exists i :: 0 <= i < |args| && args[i].name == name && r.1 == args[i].value
                                      && forall j :: 0 <= j < i ==> args[j].name != name
  {
    match FindFirst(args, name)
    case None => (NotFound, value)
    case Some(i) => (Ok, args[i].value)
  }

  /** `contains(name)`: some stored pair has that name. */
  function Contains(args: seq<Arg>, name: string): (r: bool)
    ensures r <==> exists i :: 0 <= i < |args| && args[i].name == name
  {
    Get(args, name, "").0 != NotFound
  }

  /** A later pair with the same name is never seen by a lookup. */
  lemma FirstOccurrenceWins(args: seq<Arg>, name: string, v1: string, v2: string, value: string)
    requires !Has(args, name)
    ensures Get(args + [Arg(name, v1), Arg(name, v2)], name, value) == (Ok, v1)
  {
    var all := args + [Arg(name, v1), Arg(name, v2)];
    assert all[|args|].name == name;
    assert forall j :: 0 <= j < |args| ==> all[j] == args[j];
  }

  // ---------------------------------------------------------------------
  // Integral get: std::from_chars
  // ---------------------------------------------------------------------

  /** The outcomes of `std::from_chars` into an unsigned type whose largest value is `max`. */
  datatype Parse = Parsed(value: nat, consumed: nat) | NoDigits | OutOfRange

  /**
   * `std::from_chars(first, last, value)` for an unsigned integer type,
   * base 10: reads the longest run of leading digits (no sign, no
   * whitespace); none is `invalid_argument`, a value above `max` is
   * `result_out_of_range`, and trailing characters are not an error.
   */
  function FromChars(s: string, max: nat): (r: Parse)
    ensures r.NoDigits? <==> (|s| == 0 || !Decimal.IsDigit(s[0]))
    ensures r.Parsed? ==> 0 < r.consumed <= |s| && Decimal.AllDigits(s[..r.consumed])
                          && r.value == Decimal.Value(s[..r.consumed]) && r.value <= max
                          && (r.consumed < |s| ==> !Decimal.IsDigit(s[r.consumed]))
    ensures r.OutOfRange? ==> exists k :: 0 < k <= |s| && Decimal.AllDigits(s[..k]) && Decimal.Value(s[..k]) > max
  {
    var k := Decimal.DigitPrefixLength(s);
    if k == 0 then NoDigits
    else if Decimal.Value(s[..k]) > max then OutOfRange
    else Parsed(Decimal.Value(s[..k]), k)
  }

  /**
   * `get(name, T&)` for an unsigned integral `T` with largest value `max`:
   * `NotFound` passes through, a successful parse is `Ok` with the parsed
   * value, anything else is `Invalid`; the output changes only on `Ok`.
   */
  function GetInt(args: seq<Arg>, name: string, value: nat, max: nat): (r: (ArgType, nat))
    ensures r.0 == NotFound <==> !Has(args, name)
    ensures r.0 != Ok ==> r.1 == value
    ensures r.0 == Ok <==> Has(args, name) && FromChars(Get(args, name, "").1, max).Parsed?
    ensures r.0 == Ok ==> r.1 == FromChars(Get(args, name, "").1, max).value && r.1 <= max
  {
    var (t, raw) := Get(args, name, "");
    if t != Ok then (t, value)
    else
      match FromChars(raw, max)
      case Parsed(v, _) => (Ok, v)
      case _ => (Invalid, value)
  }

  /** A flag whose first value is a printed count within range reads back as that count. */
  lemma GetIntRoundTrip(args: seq<Arg>, name: string, n: nat, value: nat, max: nat)
    requires Has(args, name)
    requires Get(args, name, "").1 == Decimal.ToDecimal(n)
    requires n <= max
    ensures GetInt(args, name, value, max) == (Ok, n)
  {
    var s := Decimal.ToDecimal(n);
    Decimal.ToDecimalIsDigitPrefix(n);
    assert s[..|s|] == s;
    Decimal.ValueOfToDecimal(n);
  }

  /** `-n 12abc` is accepted as 12; `-n` with no value, `-n abc` and `-n 256` into a byte are `Invalid`. */
  lemma GetIntExamples(value: nat)
    ensures GetInt([Arg("-n", "12abc")], "-n", value, U64_LIMIT - 1) == (Ok, 12)
    ensures GetInt([Arg("-n", "")], "-n", value, U64_LIMIT - 1) == (Invalid, value)
    ensures GetInt([Arg("-n", "abc")], "-n", value, U64_LIMIT - 1) == (Invalid, value)
    ensures GetInt([Arg("-n", "256")], "-n", value, 255) == (Invalid, value)
    ensures GetInt([Arg("-a", "3")], "-n", value, 255) == (NotFound, value)
  {
    assert "12abc"[1..] == "2abc" && "2abc"[1..] == "abc";
    assert Decimal.DigitPrefixLength("abc") == 0;
    assert Decimal.DigitPrefixLength("12abc") == 2;
    assert "12abc"[..2] == "12";
    assert "12"[..1] == "1" && "1"[..0] == "";
    assert Decimal.Value("12") == 12;
    assert FromChars("12abc", U64_LIMIT - 1) == Parsed(12, 2);
    assert Get([Arg("-n", "12abc")], "-n", "") == (Ok, "12abc");
    assert "12"[..1] == "1";
    assert "256"[..3] == "256";
    assert "256"[..2] == "25";
    assert "25"[..1] == "2";
  }

  // ---------------------------------------------------------------------
  // Enumeration
  // ---------------------------------------------------------------------

  /**
   * A callback is any callable, possibly with state of its own (one that
   * stops after its third call, say). It is modelled as the answers it
   * gives: `f(c, name, value)` is its answer when its c-th call receives
   * that pair, so the answer may depend on how often it was called before.
   */
  type Callback = (nat, string, string) -> bool

  /**
   * `enumerate(f)`, with `calls` calls of `f` already made: the pairs
   * handed to the callback, in order, up to and including the first one
   * for which it returns false. The k-th visited pair is the callback's
   * call number `calls + k`.
   */
  function Enumerate(args: seq<Arg>, f: Callback, calls: nat): (visited: seq<Arg>)
    ensures visited <= args
    ensures forall k :: 0 <= k < |visited| - 1 ==> f(calls + k, visited[k].name, visited[k].value)
    ensures |visited| < |args| ==> |visited| > 0 && !f(calls + |visited| - 1, visited[|visited| - 1].name, visited[|visited| - 1].value)
    ensures (forall k :: 0 <= k < |args| ==> f(calls + k, args[k].name, args[k].value)) ==> visited == args
    decreases |args|
  {
    if |args| == 0 then []
    else if !f(calls, args[0].name, args[0].value) then [args[0]]
    else
      var rest := Enumerate(args[1..], f, calls + 1);
      assert forall k :: 1 <= k < |args| ==> args[1..][k - 1] == args[k];
      [args[0]] + rest
  }

  /** A callback that declines its n-th call (counting from 0) sees at most n + 1 pairs, whatever they hold. */
  lemma {:induction false} StopsAtDeclinedCall(args: seq<Arg>, f: Callback, calls: nat, n: nat)
    requires calls <= n
    requires forall name, value :: !f(n, name, value)
    ensures |Enumerate(args, f, calls)| <= n - calls + 1
    decreases |args|
  {
    if |args| > 0 && f(calls, args[0].name, args[0].value) {
      StopsAtDeclinedCall(args[1..], f, calls + 1, n);
    }
  }

  /** The pairs with a given name, in order. */
  function Named(args: seq<Arg>, name: string): (r: seq<Arg>)
    ensures forall k :: 0 <= k < |r| ==> r[k].name == name
  {
    if |args| == 0 then []
    else if args[0].name == name then [args[0]] + Named(args[1..], name)
    else Named(args[1..], name)
  }

  /**
   * `enumerate(name, f)`: skips pairs with another name without calling
   * `f`; stops at the first false among the rest.
   */
  function EnumerateNamed(args: seq<Arg>, name: string, f: Callback, calls: nat): seq<Arg>
    decreases |args|
  {
    if |args| == 0 then []
    else if args[0].name != name then EnumerateNamed(args[1..], name, f, calls)
    else if !f(calls, args[0].name, args[0].value) then [args[0]]
    else [args[0]] + EnumerateNamed(args[1..], name, f, calls + 1)
  }

  /** The named overload behaves as the plain one run over only the pairs with that name, with the same call numbers. */
  lemma {:induction false} EnumerateNamedIsFiltered(args: seq<Arg>, name: string, f: Callback, calls: nat)
    ensures EnumerateNamed(args, name, f, calls) == Enumerate(Named(args, name), f, calls)
    decreases |args|
  {
    if |args| > 0 {
      if args[0].name == name {
        EnumerateNamedIsFiltered(args[1..], name, f, calls + 1);
        var n := Named(args, name);
        assert n[0] == args[0];
        assert n[1..] == Named(args[1..], name);
      } else {
        EnumerateNamedIsFiltered(args[1..], name, f, calls);
      }
    }
  }
}

=== FILE: cputime.dfy ===
/**
 * `CpuUsage<Unit>`, a (user, system) pair of CPU times with component-wise
 * arithmetic, and the integer arithmetic the POSIX providers use to turn a
 * `timespec` or an `rusage` time into one tick count.
 */
module CpuTime {
  import opened Machine
  import Stopwatch

  /** User and system CPU time, in ticks of one unit (microseconds in `Data`). */
  datatype CpuUsage = CpuUsage(user: int, system: int)

  /** `CpuUsage{}`: both components value-initialised. */
  function Zero(): (z: CpuUsage)
    ensures z.user == 0 && z.system == 0
  {
    CpuUsage(0, 0)
  }

  /** `operator+`, and the value `+=` leaves in its left operand. */
  function Plus(a: CpuUsage, b: CpuUsage): CpuUsage
  {
    CpuUsage(a.user + b.user, a.system + b.system)
  }

  /** `operator-`, and the value `-=` leaves in its left operand. */
  function Minus(a: CpuUsage, b: CpuUsage): CpuUsage
  {
    CpuUsage(a.user - b.user, a.system - b.system)
  }

  /** The stopwatch unit that `Stopwatch<ThreadCpuUsageProvider>` works in. */
  function UsageArith(): Stopwatch.Arith<CpuUsage>
  {
    Stopwatch.Arith(Zero(), (a: CpuUsage, b: CpuUsage) => Plus(a, b), (a: CpuUsage, b: CpuUsage) => Minus(a, b))
  }

  /** Sum of a sequence of usages, first element first. */
  function SumUsage(s: seq<CpuUsage>): CpuUsage
  {
    if |s| == 0 then Zero() else Plus(s[0], SumUsage(s[1..]))
  }

  function Users(s: seq<CpuUsage>): (r: seq<int>)
    ensures |r| == |s| && forall i :: 0 <= i < |s| ==> r[i] == s[i].user
  {
    seq(|s|, i requires 0 <= i < |s| => s[i].user)
  }

  function Systems(s: seq<CpuUsage>): (r: seq<int>)
    ensures |r| == |s| && forall i :: 0 <= i < |s| ==> r[i] == s[i].system
  {
    seq(|s|, i requires 0 <= i < |s| => s[i].system)
  }

  /** `+` and `-` work on each component separately, so subtracting what was added restores the value. */
  lemma MinusUndoesPlus(a: CpuUsage, b: CpuUsage)
    ensures Minus(Plus(a, b), b) == a
    ensures Plus(Minus(a, b), b) == a
  {
  }

  /** The order in which per-thread usages are added does not matter. */
  lemma PlusCommutes(a: CpuUsage, b: CpuUsage)
    ensures Plus(a, b) == Plus(b, a)
  {
  }

  lemma PlusAssociates(a: CpuUsage, b: CpuUsage, c: CpuUsage)
    ensures Plus(Plus(a, b), c) == Plus(a, Plus(b, c))
  {
  }

  lemma ZeroIsNeutral(a: CpuUsage)
    ensures Plus(Zero(), a) == a && Plus(a, Zero()) == a
  {
  }

  /** Appending one usage adds it to the sum. */
  lemma {:induction false} SumUsageSnoc(s: seq<CpuUsage>, x: CpuUsage)
    ensures SumUsage(s + [x]) == Plus(SumUsage(s), x)
    decreases |s|
  {
    if |s| == 0 {
      assert s + [x] == [x];
    } else {
      assert (s + [x])[1..] == s[1..] + [x];
      SumUsageSnoc(s[1..], x);
    }
  }

  /** A sum of usages is the pair of the sums of each component. */
  lemma {:induction false} SumUsageComponents(s: seq<CpuUsage>)
    ensures SumUsage(s) == CpuUsage(Sum(Users(s)), Sum(Systems(s)))
  {
    if |s| > 0 {
      SumUsageComponents(s[1..]);
      assert Users(s)[1..] == Users(s[1..]);
      assert Systems(s)[1..] == Systems(s[1..]);
    }
  }

  /**
   * `Stopwatch<ThreadCpuUsageProvider>`: after a run of start/stop pairs the
   * accumulated usage is the old total plus the sum of the returned deltas.
   */
  lemma {:induction false} UsageValueIsSumOfDeltas(sw: Stopwatch.Stopwatch<CpuUsage>, readings: seq<(CpuUsage, CpuUsage)>)
    ensures Stopwatch.Value(Stopwatch.Cycles(UsageArith(), sw, readings).0)
         == Plus(Stopwatch.Value(sw), SumUsage(Stopwatch.Cycles(UsageArith(), sw, readings).1))
    decreases |readings|
  {
    var a := UsageArith();
    if |readings| > 0 {
      var first := Stopwatch.Stop(a, Stopwatch.Start(sw, readings[0].0), readings[0].1);
      UsageValueIsSumOfDeltas(first.0, readings[1..]);
      var ds := Stopwatch.Cycles(a, sw, readings).1;
      assert ds[1..] == Stopwatch.Cycles(a, first.0, readings[1..]).1;
      PlusAssociates(Stopwatch.Value(sw), ds[0], SumUsage(ds[1..]));
    } else {
      ZeroIsNeutral(Stopwatch.Value(sw));
    }
  }

  /**
   * The providers' `std::uint64_t v = whole; v *= scale; v += fraction;`,
   * each step wrapping modulo 2^64, then the result stored as a signed tick
   * count.
   */
  function Combine(whole: int, fraction: int, scale: nat): int
  {
    ToI64(ToU64(ToU64(ToU64(whole) * scale) + fraction))
  }

  /** `ThreadCpuTimeProvider` / `ProcessCpuTimeProvider`: a `timespec` as nanoseconds. */
  function TimespecNanos(sec: int, nsec: int): int
  {
    Combine(sec, nsec, 1_000_000_000)
  }

  /** `PosixCpuUsageProvider`: an `rusage` `timeval` as microseconds (the source comment says ms). */
  function TimevalMicros(sec: int, usec: int): int
  {
    Combine(sec, usec, 1_000_000)
  }

  /** When the exact value fits a signed 64-bit count, none of the wrapping steps changes it. */
  lemma CombineExact(whole: int, fraction: int, scale: nat)
    requires 0 <= whole && 0 <= fraction
    requires whole * scale + fraction < I64_LIMIT
    ensures Combine(whole, fraction, scale) == whole * scale + fraction
  {
    assert whole * scale <= whole * scale + fraction;
    if scale > 0 {
      assert whole <= whole * scale;
    }
  }

  /** A CPU-time reading is `tv_sec * 10^9 + tv_nsec` nanoseconds for any clock value below 2^63 ns. */
  lemma TimespecExact(sec: int, nsec: int)
    requires 0 <= sec && 0 <= nsec < 1_000_000_000
    requires sec * 1_000_000_000 + nsec < I64_LIMIT
    ensures TimespecNanos(sec, nsec) == sec * 1_000_000_000 + nsec
  {
    CombineExact(sec, nsec, 1_000_000_000);
  }

  /** An rusage reading is `tv_sec * 10^6 + tv_usec` microseconds for any value below 2^63 us. */
  lemma TimevalExact(sec: int, usec: int)
    requires 0 <= sec && 0 <= usec < 1_000_000
    requires sec * 1_000_000 + usec < I64_LIMIT
    ensures TimevalMicros(sec, usec) == sec * 1_000_000 + usec
  {
    CombineExact(sec, usec, 1_000_000);
  }

  /**
   * The wrap is real: a clock value from 2^63 ns up (about 292 years)
   * still fits the unsigned arithmetic but reads back as a negative tick
   * count, 2^64 below the true one.
   */
  lemma TimespecWraps(sec: int, nsec: int)
    requires 0 <= sec && 0 <= nsec < 1_000_000_000
    requires I64_LIMIT <= sec * 1_000_000_000 + nsec < U64_LIMIT
    ensures TimespecNanos(sec, nsec) == sec * 1_000_000_000 + nsec - U64_LIMIT
    ensures TimespecNanos(sec, nsec) < 0
  {
    assert sec <= sec * 1_000_000_000;
    assert ToU64(sec) == sec;
    assert ToU64(sec * 1_000_000_000) == sec * 1_000_000_000;
  }
}

=== FILE: decimal.dfy ===
/**
 * Decimal text of unsigned integers: the digits `operator<<` prints for a
 * count, and the digit strings `std::from_chars` reads back.
 */
module Decimal {

  predicate IsDigit(c: char)
  {
    '0' <= c <= '9'
  }

  predicate AllDigits(s: string)
  {
    forall i :: 0 <= i < |s| ==> IsDigit(s[i])
  }

  function DigitValue(c: char): (d: nat)
    requires IsDigit(c)
    ensures d < 10
  {
    (c as int) - ('0' as int)
  }

  function DigitChar(d: nat): (c: char)
    requires d < 10
    ensures IsDigit(c) && DigitValue(c) == d
  {
    (('0' as int) + d) as char
  }

  /** Shortest decimal text of `n`, as printed by a stream. */
  function ToDecimal(n: nat): (s: string)
    ensures |s| > 0 && AllDigits(s)
    ensures |s| > 1 ==> s[0] != '0'
  {
    if n < 10 then [DigitChar(n)] else ToDecimal(n / 10) + [DigitChar(n % 10)]
  }

  /** The number a string of decimal digits denotes (most significant first). */
  function Value(s: string): nat
    requires AllDigits(s)
  {
    if |s| == 0 then 0 else Value(s[..|s| - 1]) * 10 + DigitValue(s[|s| - 1])
  }

  /** Length of the longest prefix of `s` made of decimal digits. */
  function DigitPrefixLength(s: string): (k: nat)
    ensures k <= |s| && AllDigits(s[..k])
    ensures k < |s| ==> !IsDigit(s[k])
  {
    if |s| == 0 || !IsDigit(s[0]) then 0
    else
      var k := 1 + DigitPrefixLength(s[1..]);
      assert s[..k] == [s[0]] + s[1..][..k - 1];
      k
  }

  /** Printing then reading back a count gives the count. */
  lemma {:induction false} ValueOfToDecimal(n: nat)
    ensures Value(ToDecimal(n)) == n
  {
    var s := ToDecimal(n);
    if n < 10 {
    } else {
      var p := ToDecimal(n / 10);
      assert s == p + [DigitChar(n % 10)];
      assert s[..|s| - 1] == p;
      ValueOfToDecimal(n / 10);
    }
  }

  /** The whole of a printed count is a digit prefix. */
  lemma ToDecimalIsDigitPrefix(n: nat)
    ensures DigitPrefixLength(ToDecimal(n)) == |ToDecimal(n)|
  {
    DigitPrefixOfDigits(ToDecimal(n));
  }

  lemma {:induction false} DigitPrefixOfDigits(s: string)
    requires AllDigits(s)
    ensures DigitPrefixLength(s) == |s|
  {
    if |s| > 0 {
      DigitPrefixOfDigits(s[1..]);
    }
  }

  /** A run of digits followed by a non-digit is exactly the digit prefix. */
  lemma DigitPrefixOfDigitsThen(digits: string, rest: string)
    requires AllDigits(digits) && |rest| > 0 && !IsDigit(rest[0])
    ensures DigitPrefixLength(digits + rest) == |digits|
  {
    var s := digits + rest;
    assert forall i :: 0 <= i < |digits| ==> s[i] == digits[i];
    assert s[|digits|] == rest[0];
  }
}

=== FILE: engine.dfy ===
/**
 * The execution engine: `run(Fixture*, Counter)` and
 * `run(threads, Fixture*, Counter)`. The engine drives a fixture through
 * initialize, a remainder loop of prologue / run / epilogue, and finalize,
 * timing only the `run` calls, and packs the stopwatch totals into `Data`.
 *
 * Clocks are reading streams: the k-th read of the wall clock yields
 * `wall(k)`, the k-th read of thread t's CPU-time and CPU-usage clocks
 * yield `cpu(t)(k)` and `usage(t)(k)`. Each stopwatch reads its clock once
 * at `start` and once at `stop`.
 */
module Engine {
  import opened Machine
  import opened Fixture
  import Stopwatch
  import CpuTime

  /** A hook call as the fixture sees it; `Run` records the count passed and the remainder returned. */
  datatype Call =
    | Initialize(threads: u32)
    | Prologue(tid: Tid)
    | Run(iterations: Counter, tid: Tid, remainder: Counter)
    | Epilogue(tid: Tid)
    | Finalize

  /** One pass of the remainder loop: the count handed to `run` and the remainder it returned. */
  datatype Pass = Pass(requested: Counter, remainder: Counter)

  /** `Data`: wall and CPU time in nanoseconds, CPU usage in microseconds. */
  datatype Data = Data(threads: u32, wallTime: int, cpuTime: int, cpuUsage: CpuTime.CpuUsage)

  datatype Clocks = Clocks(wall: nat -> int, cpu: nat -> nat -> int, usage: nat -> nat -> CpuTime.CpuUsage)

  /** Total of a stopwatch on a duration clock after n start/stop pairs. */
  function TimeSpan(clock: nat -> int, n: nat): int
  {
    Stopwatch.Span(Stopwatch.IntArith(), clock, n)
  }

  /** Total of a stopwatch on a CPU-usage clock after n start/stop pairs. */
  function UsageSpan(clock: nat -> CpuTime.CpuUsage, n: nat): CpuTime.CpuUsage
  {
    Stopwatch.Span(CpuTime.UsageArith(), clock, n)
  }

  /**
   * The passes of a finished remainder loop that started at `start`: the
   * first asks for `start`, each asks for what the previous one returned,
   * each returns less than it was given, and only the last returns 0. No
   * pass at all exactly when `start` is 0.
   */
  predicate Chained(passes: seq<Pass>, start: Counter)
  {
    && (|passes| == 0 <==> start == 0)
    && (|passes| > 0 ==> passes[0].requested == start && passes[|passes| - 1].remainder == 0)
    && (forall k :: 0 <= k < |passes| - 1 ==> passes[k].remainder == passes[k + 1].requested)
    && (forall k :: 0 <= k < |passes| ==> 0 < passes[k].requested && passes[k].remainder < passes[k].requested)
  }

  /**
   * The remainder loop of one thread, as a reference definition: while
   * the remaining count is non-zero, `prologue`, `run` (whose result
   * becomes the remaining count) and `epilogue`.
   */
  function Loop<S(!new)>(f: Fixture<S>, s: S, remaining: Counter, tid: Tid): (r: (S, seq<Pass>))
    requires Progress(f)
    decreases remaining
  {
    if remaining == 0 then (s, [])
    else
      var (s2, rest) := f.run(f.prologue(s, tid), remaining, tid);
      var (sEnd, more) := Loop(f, f.epilogue(s2, tid), rest, tid);
      (sEnd, [Pass(remaining, rest)] + more)
  }

  /**
   * The loop's passes are chained: it stops exactly when `run` returns 0,
   * it calls `run` not at all for 0 iterations, and each call receives
   * the previous call's remainder.
   */
  lemma {:induction false} LoopIsChained<S(!new)>(f: Fixture<S>, s: S, remaining: Counter, tid: Tid)
    requires Progress(f)
    ensures Chained(Loop(f, s, remaining, tid).1, remaining)
    decreases remaining
  {
    if remaining != 0 {
      var (s2, rest) := f.run(f.prologue(s, tid), remaining, tid);
      LoopIsChained(f, f.epilogue(s2, tid), rest, tid);
      var more := Loop(f, f.epilogue(s2, tid), rest, tid).1;
      var all := [Pass(remaining, rest)] + more;
      assert all == Loop(f, s, remaining, tid).1;
      assert forall k :: 1 <= k < |all| ==> all[k] == more[k - 1];
    }
  }

  /** One unrolling of the reference loop on a non-zero count. */
  lemma LoopStep<S(!new)>(f: Fixture<S>, s: S, remaining: Counter, tid: Tid, s2: S, rest: Counter)
    requires Progress(f)
    requires remaining != 0
    requires (s2, rest) == f.run(f.prologue(s, tid), remaining, tid)
    ensures Loop(f, s, remaining, tid) == (Loop(f, f.epilogue(s2, tid), rest, tid).0, [Pass(remaining, rest)] + Loop(f, f.epilogue(s2, tid), rest, tid).1)
  {
  }

  lemma SpanStep(clock: nat -> int, usage: nat -> CpuTime.CpuUsage, n: nat)
    ensures TimeSpan(clock, n + 1) == TimeSpan(clock, n) + (clock(2 * n + 1) - clock(2 * n))
    ensures UsageSpan(usage, n + 1) == CpuTime.Plus(UsageSpan(usage, n), CpuTime.Minus(usage(2 * n + 1), usage(2 * n)))
  {
  }

  /** The hook calls of one pass. */
  function PassCalls(p: Pass, tid: Tid): seq<Call>
  {
    [Prologue(tid), Run(p.requested, tid, p.remainder), Epilogue(tid)]
  }

  /** The hook calls of a sequence of passes: three per pass, none of them `initialize` or `finalize`. */
  function Calls(passes: seq<Pass>, tid: Tid): (r: seq<Call>)
    ensures |r| == 3 * |passes|
    ensures forall i :: 0 <= i < |r| ==> !r[i].Initialize? && !r[i].Finalize? && r[i].tid == tid
    decreases |passes|
  {
    if |passes| == 0 then []
    else Calls(passes[..|passes| - 1], tid) + PassCalls(passes[|passes| - 1], tid)
  }

  lemma CallsSnoc(passes: seq<Pass>, p: Pass, tid: Tid)
    ensures Calls(passes + [p], tid) == Calls(passes, tid) + PassCalls(p, tid)
  {
    assert (passes + [p])[..|passes|] == passes;
  }

  /** Everything `run(f, iterations)` is promised to do, stated against the reference loop. */
  ghost predicate SingleOutcome<S(!new)>(f: Fixture<S>, s0: S, iterations: Counter, clocks: Clocks, d: Data, s: S, trace: seq<Call>)
    requires Progress(f)
  {
    var (sLoop, passes) := Loop(f, f.initialize(s0, 1), iterations, 0);
    && s == f.finalize(sLoop)
    && trace == [Initialize(1)] + Calls(passes, 0) + [Finalize]
    && d == Data(1, TimeSpan(clocks.wall, |passes|), TimeSpan(clocks.cpu(0), |passes|), UsageSpan(clocks.usage(0), |passes|))
  }

  /**
   * `run(Fixture*, Counter)`: `initialize(1)`, the remainder loop on
   * thread 0 with all three stopwatches bracketing only `run`, then
   * `finalize()`.
   */
  method RunSingle<S(!new)>(f: Fixture<S>, s0: S, iterations: Counter, clocks: Clocks) returns (d: Data, s: S, trace: seq<Call>)
    requires Progress(f)
    ensures SingleOutcome(f, s0, iterations, clocks, d, s, trace)
    ensures trace[0] == Initialize(1) && trace[|trace| - 1] == Finalize
    ensures forall i :: 0 < i < |trace| - 1 ==> !trace[i].Initialize? && !trace[i].Finalize?
    ensures iterations == 0 ==> trace == [Initialize(1), Finalize] && d.wallTime == 0 && d.cpuTime == 0
    ensures d.threads == 1
  {
    s := f.initialize(s0, 1);
    var calls, wallTime, cpuTime, cpuUsage;
    s, calls, wallTime, cpuTime, cpuUsage := SingleLoop(f, s, iterations, clocks);
    s := f.finalize(s);
    trace := [Initialize(1)] + calls + [Finalize];
    d := Data(1, wallTime, cpuTime, cpuUsage);
  }

  /** The `while (iterations)` loop of the single-threaded path, with its three stopwatches. */
  method SingleLoop<S(!new)>(f: Fixture<S>, s1: S, iterations: Counter, clocks: Clocks)
    returns (s: S, calls: seq<Call>, wall: int, cpu: int, usage: CpuTime.CpuUsage)
    requires Progress(f)
    ensures var (sLoop, passes) := Loop(f, s1, iterations, 0);
            && s == sLoop && calls == Calls(passes, 0)
            && wall == TimeSpan(clocks.wall, |passes|)
            && cpu == TimeSpan(clocks.cpu(0), |passes|)
            && usage == UsageSpan(clocks.usage(0), |passes|)
  {
    var wallTime := Stopwatch.New(Stopwatch.IntArith());
    var cpuTime := Stopwatch.New(Stopwatch.IntArith());
    var cpuUsage := Stopwatch.New(CpuTime.UsageArith());
    s := s1;
    calls := [];
    var remaining := iterations;
    var n: nat := 0;
    ghost var done: seq<Pass> := [];
    assert done + Loop(f, s, remaining, 0).1 == Loop(f, s, remaining, 0).1;
    while remaining != 0
      invariant Loop(f, s1, iterations, 0) == (Loop(f, s, remaining, 0).0, done + Loop(f, s, remaining, 0).1)
      invariant calls == Calls(done, 0)
      invariant n == |done|
      invariant Stopwatch.Value(wallTime) == TimeSpan(clocks.wall, n)
      invariant Stopwatch.Value(cpuTime) == TimeSpan(clocks.cpu(0), n)
      invariant Stopwatch.Value(cpuUsage) == UsageSpan(clocks.usage(0), n)
      decreases remaining
    {
      ghost var sBefore := s;
      s := f.prologue(s, 0);

      wallTime := Stopwatch.Start(wallTime, clocks.wall(2 * n));
      cpuUsage := Stopwatch.Start(cpuUsage, clocks.usage(0)(2 * n));
      cpuTime := Stopwatch.Start(cpuTime, clocks.cpu(0)(2 * n));

      var (s2, rest) := f.run(s, remaining, 0);

      cpuTime := Stopwatch.Stop(Stopwatch.IntArith(), cpuTime, clocks.cpu(0)(2 * n + 1)).0;
      cpuUsage := Stopwatch.Stop(CpuTime.UsageArith(), cpuUsage, clocks.usage(0)(2 * n + 1)).0;
      wallTime := Stopwatch.Stop(Stopwatch.IntArith(), wallTime, clocks.wall(2 * n + 1)).0;

      s := f.epilogue(s2, 0);

      LoopStep(f, sBefore, remaining, 0, s2, rest);
      ConcatAssoc(done, [Pass(remaining, rest)], Loop(f, s, rest, 0).1);
      SpanStep(clocks.wall, clocks.usage(0), n);
      SpanStep(clocks.cpu(0), clocks.usage(0), n);
      CallsSnoc(done, Pass(remaining, rest), 0);
      calls := calls + PassCalls(Pass(remaining, rest), 0);
      done := done + [Pass(remaining, rest)];
      remaining := rest;
      n := n + 1;
    }
    assert Loop(f, s, remaining, 0) == (s, []);
    assert done + [] == done;
    wall := Stopwatch.Value(wallTime);
    cpu := Stopwatch.Value(cpuTime);
    usage := Stopwatch.Value(cpuUsage);
  }

  // ---------------------------------------------------------------------
  // What the remainder loop consumes
  // ---------------------------------------------------------------------

  /** How much of the count each pass consumed. */
  function Consumed(passes: seq<Pass>): (r: seq<int>)
    ensures |r| == |passes|
    ensures forall k :: 0 <= k < |passes| ==> r[k] == passes[k].requested - passes[k].remainder
  {
    seq(|passes|, k requires 0 <= k < |passes| => passes[k].requested - passes[k].remainder)
  }

  /** Dropping the first pass of a chain leaves a chain from that pass's remainder. */
  lemma ChainedTail(passes: seq<Pass>, start: Counter)
    requires Chained(passes, start) && |passes| > 0
    ensures Chained(passes[1..], passes[0].remainder)
  {
    var rest := passes[1..];
    if |passes| > 1 {
      assert rest[0] == passes[1];
    }
    forall k | 0 <= k < |rest| - 1
      ensures rest[k].remainder == rest[k + 1].requested
    {
      assert rest[k] == passes[k + 1] && rest[k + 1] == passes[k + 2];
    }
  }

  /** The amounts consumed by a finished loop add up to exactly the requested count. */
  lemma {:induction false} ConsumedSumsToStart(passes: seq<Pass>, start: Counter)
    requires Chained(passes, start)
    ensures Sum(Consumed(passes)) == start
    decreases |passes|
  {
    if |passes| > 0 {
      ChainedTail(passes, start);
      ConsumedSumsToStart(passes[1..], passes[0].remainder);
      assert Consumed(passes)[1..] == Consumed(passes[1..]);
    }
  }

  /** `run` consuming up to `chunk` of what it is given, as a fixture with a fixed batch size does. */
  function Chunk(iterations: Counter, chunk: nat): (r: Counter)
    ensures r <= iterations
    ensures chunk > 0 && iterations > 0 ==> r < iterations
  {
    if iterations <= chunk then 0 else iterations - chunk
  }

  /**
   * With a fixture whose `run` consumes `chunk` iterations per call, the
   * loop calls `run` exactly ceil(iterations / chunk) times: the count c is
   * the one with (c - 1) * chunk < iterations <= c * chunk.
   */
  lemma {:induction false} ChunkedRunCount<S(!new)>(f: Fixture<S>, s: S, iterations: Counter, tid: Tid, chunk: nat)
    requires Progress(f)
    requires chunk > 0
    requires forall s': S, i: Counter, t: Tid :: i > 0 ==> f.run(s', i, t).1 == Chunk(i, chunk)
    ensures var c := |Loop(f, s, iterations, tid).1|;
            (c - 1) * chunk < iterations <= c * chunk
    decreases iterations
  {
    if iterations > 0 {
      var (s2, rest) := f.run(f.prologue(s, tid), iterations, tid);
      assert rest == Chunk(iterations, chunk);
      ChunkedRunCount(f, f.epilogue(s2, tid), rest, tid, chunk);
      var c' := |Loop(f, f.epilogue(s2, tid), rest, tid).1|;
      assert |Loop(f, s, iterations, tid).1| == c' + 1;
      if iterations <= chunk {
        assert rest == 0;
        assert c' == 0;
      } else {
        assert (c' + 1) * chunk == c' * chunk + chunk;
        assert (c' - 1) * chunk == c' * chunk - chunk;
      }
    }
  }

  // ---------------------------------------------------------------------
  // The multi-threaded path
  // ---------------------------------------------------------------------

  /**
   * The loops of workers 0 .. n-1. The workers run concurrently; the model
   * takes them one after another in thread order, each starting from the
   * fixture state the previous one left.
   */
  function ThreadLoops<S(!new)>(f: Fixture<S>, s: S, iterations: Counter, n: nat): (r: (S, seq<seq<Pass>>))
    requires Progress(f)
    requires n < U32_LIMIT
    ensures |r.1| == n
    decreases n
  {
    if n == 0 then (s, [])
    else
      var (s1, loops) := ThreadLoops(f, s, iterations, n - 1);
      var (s2, passes) := Loop(f, s1, iterations, n - 1);
      (s2, loops + [passes])
  }

  /** The hook calls of all workers, worker 0 first. */
  function AllCalls(loops: seq<seq<Pass>>): seq<Call>
    requires |loops| < U32_LIMIT
    decreases |loops|
  {
    if |loops| == 0 then []
    else AllCalls(loops[..|loops| - 1]) + Calls(loops[|loops| - 1], |loops| - 1)
  }

  /** The value of each worker's CPU-time stopwatch. */
  function CpuTotals(cpu: nat -> nat -> int, loops: seq<seq<Pass>>): (r: seq<int>)
    ensures |r| == |loops|
    ensures forall t :: 0 <= t < |loops| ==> r[t] == TimeSpan(cpu(t), |loops[t]|)
  {
    seq(|loops|, t requires 0 <= t < |loops| => TimeSpan(cpu(t), |loops[t]|))
  }

  /** The value of each worker's CPU-usage stopwatch. */
  function UsageTotals(usage: nat -> nat -> CpuTime.CpuUsage, loops: seq<seq<Pass>>): (r: seq<CpuTime.CpuUsage>)
    ensures |r| == |loops|
    ensures forall t :: 0 <= t < |loops| ==> r[t] == UsageSpan(usage(t), |loops[t]|)
  {
    seq(|loops|, t requires 0 <= t < |loops| => UsageSpan(usage(t), |loops[t]|))
  }

  /**
   * Everything `run(threads, f, iterations)` is promised to do for two or
   * more threads. The wall stopwatch is started whenever the count of
   * active workers rises from 0 and stopped whenever it falls back to 0;
   * how many such busy periods there are (at least one, at most one per
   * worker) depends on scheduling and is the parameter `busy`.
   */
  ghost predicate ThreadedOutcome<S(!new)>(threads: u32, f: Fixture<S>, s0: S, iterations: Counter, clocks: Clocks,
                                           busy: nat, d: Data, s: S, trace: seq<Call>)
    requires Progress(f)
  {
    var (sLoops, loops) := ThreadLoops(f, f.initialize(s0, threads), iterations, threads);
    && s == f.finalize(sLoops)
    && trace == [Initialize(threads)] + AllCalls(loops) + [Finalize]
    && d == Data(threads, TimeSpan(clocks.wall, busy),
                 Sum(CpuTotals(clocks.cpu, loops)), CpuTime.SumUsage(UsageTotals(clocks.usage, loops)))
  }

  /**
   * `run(threads, Fixture*, Counter)`: fewer than two threads is exactly
   * the single-threaded path (reported as one thread); otherwise
   * `initialize(threads)`, every worker's remainder loop with its own
   * tid and CPU stopwatches, the shared wall stopwatch over the busy
   * periods, `finalize()`, and the per-thread CPU totals summed in tid order.
   */
  method RunThreads<S(!new)>(threads: u32, f: Fixture<S>, s0: S, iterations: Counter, clocks: Clocks, busy: nat)
    returns (d: Data, s: S, trace: seq<Call>)
    requires Progress(f)
    requires threads >= 2 ==> 1 <= busy <= threads as nat
    ensures threads < 2 ==> SingleOutcome(f, s0, iterations, clocks, d, s, trace)
    ensures threads >= 2 ==> ThreadedOutcome(threads, f, s0, iterations, clocks, busy, d, s, trace)
    ensures threads >= 2 && busy == 1 ==> d.wallTime == clocks.wall(1) - clocks.wall(0)
    ensures d.threads == if threads < 2 then 1 else threads
  {
    if threads < 2 {
      d, s, trace := RunSingle(f, s0, iterations, clocks);
      return;
    }
    var sInit := f.initialize(s0, threads);

    var calls, cpuTimes, cpuUsages;
    s, calls, cpuTimes, cpuUsages := Workers(f, sInit, iterations, threads, clocks);
    var wallTime := BusyPeriods(clocks.wall, busy);

    s := f.finalize(s);
    trace := [Initialize(threads)] + calls + [Finalize];

    var cpuTime, cpuUsage := Total(cpuTimes, cpuUsages);
    d := Data(threads, wallTime, cpuTime, cpuUsage);
    SpanStep(clocks.wall, clocks.usage(0), 0);
  }

  /** The shared wall stopwatch, started and stopped once per busy period. */
  method BusyPeriods(wall: nat -> int, busy: nat) returns (total: int)
    ensures total == TimeSpan(wall, busy)
  {
    var sw := Stopwatch.New(Stopwatch.IntArith());
    var k := 0;
    while k < busy
      invariant k <= busy
      invariant Stopwatch.Value(sw) == TimeSpan(wall, k)
    {
      sw := Stopwatch.Start(sw, wall(2 * k));
      sw := Stopwatch.Stop(Stopwatch.IntArith(), sw, wall(2 * k + 1)).0;
      SpanStep(wall, (n: nat) => CpuTime.Zero(), k);
      k := k + 1;
    }
    total := Stopwatch.Value(sw);
  }

  lemma ThreadLoopsStep<S(!new)>(f: Fixture<S>, s: S, iterations: Counter, n: nat, sn: S, loops: seq<seq<Pass>>)
    requires Progress(f)
    requires n + 1 < U32_LIMIT
    requires ThreadLoops(f, s, iterations, n) == (sn, loops)
    ensures ThreadLoops(f, s, iterations, n + 1)
            == (Loop(f, sn, iterations, n).0, loops + [Loop(f, sn, iterations, n).1])
  {
  }

  lemma AllCallsSnoc(loops: seq<seq<Pass>>, passes: seq<Pass>)
    requires |loops| + 1 < U32_LIMIT
    ensures AllCalls(loops + [passes]) == AllCalls(loops) + Calls(passes, |loops|)
  {
    assert (loops + [passes])[..|loops|] == loops;
  }

  lemma TotalsSnoc(clocks: Clocks, loops: seq<seq<Pass>>, passes: seq<Pass>)
    ensures CpuTotals(clocks.cpu, loops + [passes])
            == CpuTotals(clocks.cpu, loops) + [TimeSpan(clocks.cpu(|loops|), |passes|)]
    ensures UsageTotals(clocks.usage, loops + [passes])
            == UsageTotals(clocks.usage, loops) + [UsageSpan(clocks.usage(|loops|), |passes|)]
  {
  }

  /** The workers of the multi-threaded path, in thread order. */
  method Workers<S(!new)>(f: Fixture<S>, sInit: S, iterations: Counter, threads: u32, clocks: Clocks)
    returns (s: S, calls: seq<Call>, cpuTimes: seq<int>, cpuUsages: seq<CpuTime.CpuUsage>)
    requires Progress(f)
    ensures var (sLoops, loops) := ThreadLoops(f, sInit, iterations, threads);
            && s == sLoops && calls == AllCalls(loops)
            && cpuTimes == CpuTotals(clocks.cpu, loops)
            && cpuUsages == UsageTotals(clocks.usage, loops)
  {
    s := sInit;
    cpuTimes := [];
    cpuUsages := [];
    calls := [];
    ghost var loops: seq<seq<Pass>> := [];
    var tid: nat := 0;
    while tid < threads
      invariant tid <= threads
      invariant |loops| == tid
      invariant ThreadLoops(f, sInit, iterations, tid) == (s, loops)
      invariant calls == AllCalls(loops)
      invariant cpuTimes == CpuTotals(clocks.cpu, loops)
      invariant cpuUsages == UsageTotals(clocks.usage, loops)
    {
      ghost var passes := Loop(f, s, iterations, tid).1;
      ThreadLoopsStep(f, sInit, iterations, tid, s, loops);
      AllCallsSnoc(loops, passes);
      TotalsSnoc(clocks, loops, passes);
      var s', c, cpu, usage := WorkerLoop(f, s, iterations, tid, clocks);
      calls := calls + c;
      cpuTimes := cpuTimes + [cpu];
      cpuUsages := cpuUsages + [usage];
      loops := loops + [passes];
      s := s';
      tid := tid + 1;
    }
  }

  /** The per-thread CPU totals added up, in thread order. */
  method Total(cpuTimes: seq<int>, cpuUsages: seq<CpuTime.CpuUsage>) returns (cpuTime: int, cpuUsage: CpuTime.CpuUsage)
    requires |cpuTimes| == |cpuUsages|
    ensures cpuTime == Sum(cpuTimes)
    ensures cpuUsage == CpuTime.SumUsage(cpuUsages)
  {
    cpuTime := 0;
    cpuUsage := CpuTime.Zero();
    var t := 0;
    while t < |cpuTimes|
      invariant t <= |cpuTimes|
      invariant cpuTime == Sum(cpuTimes[..t])
      invariant cpuUsage == CpuTime.SumUsage(cpuUsages[..t])
    {
      assert cpuTimes[..t + 1] == cpuTimes[..t] + [cpuTimes[t]];
      assert cpuUsages[..t + 1] == cpuUsages[..t] + [cpuUsages[t]];
      SumSnoc(cpuTimes[..t], cpuTimes[t]);
      CpuTime.SumUsageSnoc(cpuUsages[..t], cpuUsages[t]);
      cpuTime := cpuTime + cpuTimes[t];
      cpuUsage := CpuTime.Plus(cpuUsage, cpuUsages[t]);
      t := t + 1;
    }
    assert cpuTimes[..t] == cpuTimes;
    assert cpuUsages[..t] == cpuUsages;
  }

  /** One worker's `while (remaining)` loop with its own CPU-time and CPU-usage stopwatches. */
  method WorkerLoop<S(!new)>(f: Fixture<S>, s1: S, iterations: Counter, tid: Tid, clocks: Clocks)
    returns (s: S, calls: seq<Call>, cpu: int, usage: CpuTime.CpuUsage)
    requires Progress(f)
    ensures var (sLoop, passes) := Loop(f, s1, iterations, tid);
            && s == sLoop && calls == Calls(passes, tid)
            && cpu == TimeSpan(clocks.cpu(tid), |passes|)
            && usage == UsageSpan(clocks.usage(tid), |passes|)
  {
    var cpuTime := Stopwatch.New(Stopwatch.IntArith());
    var cpuUsage := Stopwatch.New(CpuTime.UsageArith());
    s := s1;
    calls := [];
    var remaining := iterations;
    var n: nat := 0;
    ghost var done: seq<Pass> := [];
    assert done + Loop(f, s, remaining, tid).1 == Loop(f, s, remaining, tid).1;
    while remaining != 0
      invariant Loop(f, s1, iterations, tid) == (Loop(f, s, remaining, tid).0, done + Loop(f, s, remaining, tid).1)
      invariant calls == Calls(done, tid)
      invariant n == |done|
      invariant Stopwatch.Value(cpuTime) == TimeSpan(clocks.cpu(tid), n)
      invariant Stopwatch.Value(cpuUsage) == UsageSpan(clocks.usage(tid), n)
      decreases remaining
    {
      ghost var sBefore := s;
      s := f.prologue(s, tid);

      cpuUsage := Stopwatch.Start(cpuUsage, clocks.usage(tid)(2 * n));
      cpuTime := Stopwatch.Start(cpuTime, clocks.cpu(tid)(2 * n));

      var (s2, rest) := f.run(s, remaining, tid);

      cpuTime := Stopwatch.Stop(Stopwatch.IntArith(), cpuTime, clocks.cpu(tid)(2 * n + 1)).0;
      cpuUsage := Stopwatch.Stop(CpuTime.UsageArith(), cpuUsage, clocks.usage(tid)(2 * n + 1)).0;

      s := f.epilogue(s2, tid);

      LoopStep(f, sBefore, remaining, tid, s2, rest);
      ConcatAssoc(done, [Pass(remaining, rest)], Loop(f, s, rest, tid).1);
      SpanStep(clocks.cpu(tid), clocks.usage(tid), n);
      CallsSnoc(done, Pass(remaining, rest), tid);
      calls := calls + PassCalls(Pass(remaining, rest), tid);
      done := done + [Pass(remaining, rest)];
      remaining := rest;
      n := n + 1;
    }
    assert Loop(f, s, remaining, tid) == (s, []);
    assert done + [] == done;
    cpu := Stopwatch.Value(cpuTime);
    usage := Stopwatch.Value(cpuUsage);
  }
}

=== FILE: fixture.dfy ===
/**
 * The `Fixture` hook interface and the `SimpleFixture` adapter. A fixture
 * is modelled by its state type `S` and five hooks that map a state to the
 * next one; `run` also returns the unconsumed remainder of its iterations.
 */
module Fixture {
  import opened Machine

  /** `Counter`: iteration counts. */
  type Counter = u64

  /** `Tid`: the 0-based worker number handed to the hooks. */
  type Tid = u32

  /** The hooks of `struct Fixture`, `run` being the only one without a default. */
  datatype Fixture<!S> = Fixture(
    initialize: (S, u32) -> S,
    prologue: (S, Tid) -> S,
    run: (S, Counter, Tid) -> (S, Counter),
    epilogue: (S, Tid) -> S,
    finalize: S -> S)

  /** A fixture that overrides only `run`: the other four hooks are the base class's empty bodies. */
  function WithRun<S(!new)>(run: (S, Counter, Tid) -> (S, Counter)): (f: Fixture<S>)
    ensures f.run == run
    ensures forall s: S, n: u32 :: f.initialize(s, n) == s
    ensures forall s: S, t: Tid :: f.prologue(s, t) == s && f.epilogue(s, t) == s
    ensures forall s: S :: f.finalize(s) == s
  {
    Fixture((s: S, n: u32) => s, (s: S, t: Tid) => s, run, (s: S, t: Tid) => s, (s: S) => s)
  }

  /**
   * `SimpleFixture`: wraps a `SimpleBenchmark`, any callable from
   * (Counter, Tid) to Counter. Its `run` returns exactly what the callable
   * returns and it keeps no state of its own.
   */
  function SimpleFixture<S(!new)>(work: (Counter, Tid) -> Counter): (f: Fixture<S>)
    ensures forall s: S, i: Counter, t: Tid :: f.run(s, i, t) == (s, work(i, t))
    ensures forall s: S, n: u32 :: f.initialize(s, n) == s
    ensures forall s: S, t: Tid :: f.prologue(s, t) == s && f.epilogue(s, t) == s
    ensures forall s: S :: f.finalize(s) == s
  {
    WithRun((s: S, i: Counter, t: Tid) => (s, work(i, t)))
  }

  /**
   * What the engine's loop needs from `run` to end: a positive remainder
   * always shrinks. A fixture without this may keep the loop going forever.
   */
  ghost predicate Progress<S(!new)>(f: Fixture<S>)
  {
    forall s: S, i: Counter, t: Tid :: i > 0 ==> f.run(s, i, t).1 < i
  }
}

=== FILE: legacy_runner.dfy ===
/**
 * The older single-header harness in benchmark.hpp: `run(work, it)`,
 * `run(threads, work, it)`, and a `Runner` whose entries each carry one
 * thread count and a `group` flag. Grouped entries (added with a name)
 * start a new section of the report; anonymous entries run under the name
 * of the group before them.
 *
 * The work is a callable of the iteration count; like the newer registry,
 * executing an entry is an abstract step over a world `w`. Per-op time is
 * an unsigned integer quotient, which divides by zero when the iteration
 * count is 0; the model returns `None` there.
 */
module LegacyRunner {
  import opened Machine
  import Stopwatch
  import CpuTime
  import Decimal
  import Runner

  /** `Timings`: wall time in nanoseconds, process CPU usage in microseconds. */
  datatype Timings = Timings(time: int, cpu: CpuTime.CpuUsage)

  /** A registered benchmark. */
  datatype Entry = Entry(name: string, threads: u32, group: bool)

  datatype Registry = Registry(name: string, iterations: u64, entries: seq<Entry>)

  /** The two `add` overloads. */
  datatype Add =
    | AddNamed(name: string, threads: u32)
    | AddAnonymous(threads: u32)

  // ---------------------------------------------------------------------
  // Timing one piece of work
  // ---------------------------------------------------------------------

  /** `work(iterations)` done `n` times over the world. */
  function Repeat<W>(work: (W, u64) -> W, iterations: u64, w: W, n: nat): W
  {
    if n == 0 then w else work(Repeat(work, iterations, w, n - 1), iterations)
  }

  /** The reading pairs of n start/stop cycles on one clock: cycle k reads 2k and 2k+1. */
  function Readings<U>(clock: nat -> U, n: nat): (r: seq<(U, U)>)
    ensures |r| == n
    ensures forall k :: 0 <= k < n ==> r[k] == (clock(2 * k), clock(2 * k + 1))
  {
    seq(n, k requires 0 <= k < n => (clock(2 * k), clock(2 * k + 1)))
  }

  /** How often the shared stopwatches run: once on the single path, once per busy period otherwise. */
  function Periods(threads: u32, busy: nat): nat
  {
    if threads < 2 then 1 else busy
  }

  /** The wall time of each of n cycles: what the clock moved between the start and stop reading. */
  function WallDeltas(wall: nat -> int, n: nat): (r: seq<int>)
    ensures |r| == n && forall k :: 0 <= k < n ==> r[k] == wall(2 * k + 1) - wall(2 * k)
  {
    seq(n, k requires 0 <= k < n => wall(2 * k + 1) - wall(2 * k))
  }

  /** The CPU usage consumed in each of n cycles. */
  function UsageDeltas(usage: nat -> CpuTime.CpuUsage, n: nat): (r: seq<CpuTime.CpuUsage>)
    ensures |r| == n && forall k :: 0 <= k < n ==> r[k] == CpuTime.Minus(usage(2 * k + 1), usage(2 * k))
  {
    seq(n, k requires 0 <= k < n => CpuTime.Minus(usage(2 * k + 1), usage(2 * k)))
  }

  /** A fresh wall stopwatch run for n cycles accumulates every cycle's span. */
  function Elapsed(wall: nat -> int, n: nat): (t: int)
    ensures t == Sum(WallDeltas(wall, n))
    ensures n == 1 ==> t == wall(1) - wall(0)
  {
    var a := Stopwatch.IntArith();
    var sw := Stopwatch.Cycles(a, Stopwatch.New(a), Readings(wall, n));
    Stopwatch.FreshValueIsSumOfSpans(Readings(wall, n));
    assert sw.1 == WallDeltas(wall, n);
    assert n == 1 ==> Sum(sw.1) == sw.1[0] + Sum(sw.1[1..]);
    Stopwatch.Value(sw.0)
  }

  /** A fresh CPU-usage stopwatch run for n cycles accumulates every cycle's usage. */
  function Spent(usage: nat -> CpuTime.CpuUsage, n: nat): (c: CpuTime.CpuUsage)
    ensures c == CpuTime.SumUsage(UsageDeltas(usage, n))
  {
    var a := CpuTime.UsageArith();
    var sw := Stopwatch.Cycles(a, Stopwatch.New(a), Readings(usage, n));
    CpuTime.UsageValueIsSumOfDeltas(Stopwatch.New(a), Readings(usage, n));
    CpuTime.ZeroIsNeutral(CpuTime.SumUsage(sw.1));
    assert sw.1 == UsageDeltas(usage, n);
    Stopwatch.Value(sw.0)
  }

  /**
   * `run(threads, work, it)`. Fewer than two threads is `run(work, it)`:
   * start the CPU-usage and wall stopwatches, do the work once, stop them.
   * Otherwise every worker does the work; the first to become active
   * starts both stopwatches and the last to finish stops them, so they run
   * once per busy period (a scheduling parameter, `busy`); the workers are
   * taken one after another over the world.
   */
  function Timed<W>(threads: u32, busy: nat, work: (W, u64) -> W, iterations: u64, w: W,
                    wall: nat -> int, usage: nat -> CpuTime.CpuUsage): (r: (W, Timings))
    requires threads >= 2 ==> 1 <= busy <= threads as nat
    ensures r.1.time == Sum(WallDeltas(wall, Periods(threads, busy)))
    ensures r.1.cpu == CpuTime.SumUsage(UsageDeltas(usage, Periods(threads, busy)))
    ensures Periods(threads, busy) == 1 ==> r.1.time == wall(1) - wall(0)
  {
    var n := Periods(threads, busy);
    var w' := Repeat(work, iterations, w, if threads < 2 then 1 else threads as nat);
    (w', Timings(Elapsed(wall, n), Spent(usage, n)))
  }

  /** Zero or one thread is the single-threaded `run(work, it)`: the work runs exactly once. */
  lemma FewThreadsRunOnce<W>(threads: u32, busy: nat, work: (W, u64) -> W, iterations: u64, w: W,
                             wall: nat -> int, usage: nat -> CpuTime.CpuUsage)
    requires threads < 2
    ensures Timed(threads, busy, work, iterations, w, wall, usage) == Timed(1, 0, work, iterations, w, wall, usage)
    ensures Timed(threads, busy, work, iterations, w, wall, usage).0 == work(w, iterations)
  {
    assert Repeat(work, iterations, w, 1) == work(Repeat(work, iterations, w, 0), iterations);
  }

  /** The world after n single-threaded runs of the same work, one after another. */
  function SingleRuns<W>(work: (W, u64) -> W, iterations: u64, w: W, n: nat,
                         wall: nat -> int, usage: nat -> CpuTime.CpuUsage): W
  {
    if n == 0 then w else Timed(1, 0, work, iterations, SingleRuns(work, iterations, w, n - 1, wall, usage), wall, usage).0
  }

  lemma {:induction false} RepeatIsSingleRuns<W>(work: (W, u64) -> W, iterations: u64, w: W, n: nat,
                                                wall: nat -> int, usage: nat -> CpuTime.CpuUsage)
    ensures Repeat(work, iterations, w, n) == SingleRuns(work, iterations, w, n, wall, usage)
  {
    if n > 0 {
      RepeatIsSingleRuns(work, iterations, w, n - 1, wall, usage);
      FewThreadsRunOnce(1, 0, work, iterations, SingleRuns(work, iterations, w, n - 1, wall, usage), wall, usage);
    }
  }

  /**
   * With two or more threads every worker does the whole work: the world
   * the threaded run leaves is that of `threads` single-threaded runs in a
   * row, the last worker's work applied to what the others left.
   */
  lemma EveryWorkerRuns<W>(threads: u32, busy: nat, work: (W, u64) -> W, iterations: u64, w: W,
                           wall: nat -> int, usage: nat -> CpuTime.CpuUsage)
    requires 2 <= threads && 1 <= busy <= threads as nat
    ensures Timed(threads, busy, work, iterations, w, wall, usage).0
            == SingleRuns(work, iterations, w, threads as nat, wall, usage)
    ensures Timed(threads, busy, work, iterations, w, wall, usage).0
            == work(Repeat(work, iterations, w, threads as nat - 1), iterations)
  {
    RepeatIsSingleRuns(work, iterations, w, threads as nat, wall, usage);
  }

  // ---------------------------------------------------------------------
  // Registration
  // ---------------------------------------------------------------------

  function EntryOf(a: Add): (e: Entry)
    ensures e.group <==> a.AddNamed?
    ensures e.threads == a.threads
    ensures a.AddAnonymous? ==> e.name == ""
  {
    match a
    case AddNamed(name, threads) => Entry(name, threads, true)
    case AddAnonymous(threads) => Entry("", threads, false)
  }

  /** The `add` calls applied in order to a runner. */
  function Register(reg: Registry, adds: seq<Add>): Registry
  {
    if |adds| == 0 then reg
    else
      var r := Register(reg, adds[..|adds| - 1]);
      r.(entries := r.entries + [EntryOf(adds[|adds| - 1])])
  }

  /** Entries keep insertion order: the entries after the calls are the old ones followed by one per call. */
  lemma {:induction false} RegisterKeepsOrder(reg: Registry, adds: seq<Add>)
    ensures var r := Register(reg, adds);
            && r.name == reg.name && r.iterations == reg.iterations
            && |r.entries| == |reg.entries| + |adds|
            && r.entries[..|reg.entries|] == reg.entries
            && forall k :: 0 <= k < |adds| ==> r.entries[|reg.entries| + k] == EntryOf(adds[k])
  {
    if |adds| > 0 {
      RegisterKeepsOrder(reg, adds[..|adds| - 1]);
      var r := Register(reg, adds[..|adds| - 1]);
      var last := EntryOf(adds[|adds| - 1]);
      assert (r.entries + [last])[..|reg.entries|] == r.entries[..|reg.entries|];
      forall k | 0 <= k < |adds|
        ensures Register(reg, adds).entries[|reg.entries| + k] == EntryOf(adds[k])
      {
        if k < |adds| - 1 {
          assert adds[..|adds| - 1][k] == adds[k];
        }
      }
    }
  }

  // ---------------------------------------------------------------------
  // Labels
  // ---------------------------------------------------------------------

  /** The name shown for entry `k`: its own if it is a group, else the one carried over. */
  function Label(entries: seq<Entry>, k: nat): string
    requires k < |entries|
  {
    if entries[k].group then entries[k].name
    else if k == 0 then ""
    else Label(entries, k - 1)
  }

  /** The label is the name of the latest group entry at or before `k`, or empty when there is none. */
  lemma {:induction false} LabelIsLatestGroup(entries: seq<Entry>, k: nat)
    requires k < |entries|
    ensures (forall j :: 0 <= j <= k ==> !entries[j].group) ==> Label(entries, k) == ""
    ensures forall j :: 0 <= j <= k && entries[j].group && (forall i :: j < i <= k ==> !entries[i].group)
              ==> Label(entries, k) == entries[j].name
  {
    if !entries[k].group && k > 0 {
      LabelIsLatestGroup(entries, k - 1);
    }
  }

  /** The "running" line: `#k+1 / N: label`, with the thread suffix for more than one thread. */
  function RunningLine(entries: seq<Entry>, k: nat): string
    requires k < |entries|
  {
    "#" + Decimal.ToDecimal(k + 1) + " / " + Decimal.ToDecimal(|entries|) + ": " + Label(entries, k)
    + Runner.ThreadSuffix(entries[k].threads)
  }

  /** The running index read back from the line is k + 1, so entries are numbered 1..N. */
  lemma RunningLineShowsPosition(entries: seq<Entry>, k: nat)
    requires k < |entries|
    ensures var line := RunningLine(entries, k);
            var n := Decimal.DigitPrefixLength(line[1..]);
            line[0] == '#' && Decimal.Value(line[1..][..n]) == k + 1
  {
    var rest := " / " + Decimal.ToDecimal(|entries|) + ": " + Label(entries, k) + Runner.ThreadSuffix(entries[k].threads);
    assert RunningLine(entries, k) == "#" + Decimal.ToDecimal(k + 1) + rest;
    Runner.NumberReadsBack(k + 1, rest);
  }

  // ---------------------------------------------------------------------
  // The report
  // ---------------------------------------------------------------------

  datatype Event =
    | Caption(text: string)
    | Running(line: string)
    | Executed(index: nat, threads: u32)
    | Header
    | Separator
    | GroupHeader(name: string, underline: int)
    | Row(threads: u32, totalUs: int, perOp: Option<u64>, baselineNs: int, userMs: int, systemMs: Option<int>)
    | Footer

  /** What `du / m_iterations` evaluates to: an unsigned quotient, or a division by zero, which C++ leaves undefined. */
  datatype Division = Quotient(value: u64) | DivisionByZero

  /** `du / m_iterations` as written: the signed count converted to unsigned, then divided. */
  function Divide(du: int, iterations: u64): (r: Division)
    ensures r.DivisionByZero? <==> iterations == 0
    ensures r.Quotient? ==> r.value * iterations <= ToU64(du) < r.value * iterations + iterations
  {
    if iterations == 0 then DivisionByZero
    else
      var q := ToU64(du) / iterations;
      assert q * iterations + ToU64(du) % iterations == ToU64(du);
      Quotient(q)
  }

  /**
   * A registry with entries and zero iterations: the caption accepts the
   * zero count, but the first report row already divides by it.
   */
  lemma ZeroIterationsDivideByZero(reg: Registry, timings: seq<Timings>)
    requires reg.iterations == 0 && |reg.entries| > 0 && |timings| == |reg.entries|
    ensures CaptionText(reg) == reg.name
    ensures Divide(timings[0].time, reg.iterations) == DivisionByZero
  {
  }

  /**
   * The per-op figure the report prints: the quotient of `du / m_iterations`,
   * and no figure where that division is by zero.
   */
  function PerOp(du: int, iterations: u64): (r: Option<u64>)
    ensures r.None? <==> iterations == 0
    ensures r.Some? <==> Divide(du, iterations).Quotient?
    ensures r.Some? ==> r.value == Divide(du, iterations).value
    ensures r.Some? ==> r.value * iterations <= ToU64(du) < r.value * iterations + iterations
    ensures r.Some? && 0 <= du < U64_LIMIT ==> r.value * iterations <= du
  {
    match Divide(du, iterations)
    case Quotient(q) => Some(q)
    case DivisionByZero => None
  }

  /** `line(c, n)` draws n characters, or the full width when n is negative. */
  function LineLength(n: int, width: int): int
  {
    if n < 0 then width else n
  }

  /** The lines printed for entry `id` of the report. */
  function EntryReport(entries: seq<Entry>, timings: seq<Timings>, iterations: u64, width: int, id: nat): (r: seq<Event>)
    requires |timings| == |entries| && id < |entries|
    ensures |r| > 0 && r[|r| - 1].Row?
    ensures r[0] == Separator <==> id == 0 || entries[id].group
    ensures entries[id].group <==> |r| >= 2 && r[|r| - 2].GroupHeader?
    ensures r[|r| - 1].baselineNs == timings[0].time
  {
    var e := entries[id];
    var t := timings[id];
    var system := TruncDiv(t.cpu.system, 1000);
    (if id == 0 || e.group then [Separator] else [])
    + (if e.group then [GroupHeader(e.name, LineLength(width - 3, width))] else [])
    + [Row(e.threads, TruncDiv(t.time, 1000), PerOp(t.time, iterations), timings[0].time,
           TruncDiv(t.cpu.user, 1000), if system > 0 then Some(system) else None)]
  }

  function ReportLog(entries: seq<Entry>, timings: seq<Timings>, iterations: u64, width: int, n: nat): seq<Event>
    requires |timings| == |entries| && n <= |entries|
  {
    if n == 0 then [] else ReportLog(entries, timings, iterations, width, n - 1) + EntryReport(entries, timings, iterations, width, n - 1)
  }

  /** No row of a report carries a per-op figure. */
  predicate NoPerOp(log: seq<Event>)
  {
    forall k :: 0 <= k < |log| && log[k].Row? ==> log[k].perOp.None?
  }

  /** With zero iterations no row of the report carries a per-op figure, so nothing is divided by zero. */
  lemma {:induction false} ZeroIterationsOmitPerOp(entries: seq<Entry>, timings: seq<Timings>, width: int, n: nat)
    requires |timings| == |entries| && n <= |entries|
    ensures NoPerOp(ReportLog(entries, timings, 0, width, n))
  {
    if n > 0 {
      ZeroIterationsOmitPerOp(entries, timings, width, n - 1);
      var prev := ReportLog(entries, timings, 0, width, n - 1);
      var block := EntryReport(entries, timings, 0, width, n - 1);
      var log := ReportLog(entries, timings, 0, width, n);
      assert log == prev + block;
      assert forall j :: 0 <= j < |block| - 1 ==> !block[j].Row?;
      assert block[|block| - 1].perOp == PerOp(timings[n - 1].time, 0);
      forall k | 0 <= k < |log| && log[k].Row?
        ensures log[k].perOp.None?
      {
        if k < |prev| {
          assert log[k] == prev[k];
        } else {
          assert log[k] == block[k - |prev|];
        }
      }
    }
  }

  /** What the execution phase prints and runs for the first `n` entries. */
  function RunLog(entries: seq<Entry>, n: nat): (r: seq<Event>)
    requires n <= |entries|
    ensures |r| == 2 * n
  {
    if n == 0 then []
    else RunLog(entries, n - 1) + [Running(RunningLine(entries, n - 1)), Executed(n - 1, entries[n - 1].threads)]
  }

  /** Each entry runs exactly once, in insertion order, announced by its running line just before. */
  lemma {:induction false} RunLogInOrder(entries: seq<Entry>, n: nat, k: nat)
    requires k < n <= |entries|
    ensures RunLog(entries, n)[2 * k] == Running(RunningLine(entries, k))
    ensures RunLog(entries, n)[2 * k + 1] == Executed(k, entries[k].threads)
  {
    if k < n - 1 {
      RunLogInOrder(entries, n - 1, k);
    }
  }

  /** Executing the first `n` entries in insertion order. */
  function Execution<W>(exec: (W, nat, u32, u64) -> (W, Timings), iterations: u64, entries: seq<Entry>, n: nat, w: W): (r: (W, seq<Timings>))
    requires n <= |entries|
    ensures |r.1| == n
  {
    if n == 0 then (w, [])
    else
      var (w1, ts) := Execution(exec, iterations, entries, n - 1, w);
      var (w2, t) := exec(w1, n - 1, entries[n - 1].threads, iterations);
      (w2, ts + [t])
  }

  function CaptionText(reg: Registry): string
  {
    Runner.CaptionText(reg.name, reg.iterations)
  }

  /**
   * `Runner::run()` of benchmark.hpp: caption; nothing else for an empty
   * registry; otherwise every entry executed once in insertion order, then
   * the header, one report block per entry and the closing line.
   */
  method Run<W>(reg: Registry, width: int, exec: (W, nat, u32, u64) -> (W, Timings), w0: W)
    returns (w: W, timings: seq<Timings>, events: seq<Event>)
    ensures (w, timings) == Execution(exec, reg.iterations, reg.entries, |reg.entries|, w0)
    ensures reg.entries == [] ==> events == [Caption(CaptionText(reg))]
    ensures reg.entries != [] ==>
              events == [Caption(CaptionText(reg))] + RunLog(reg.entries, |reg.entries|) + [Header]
                        + ReportLog(reg.entries, timings, reg.iterations, width, |reg.entries|) + [Footer]
  {
    var entries := reg.entries;
    events := [Caption(CaptionText(reg))];
    w := w0;
    timings := [];
    if |entries| == 0 {
      return;
    }

    var log;
    w, timings, log := ExecuteAll(reg, exec, w0);
    var report := Report(entries, timings, reg.iterations, width);
    events := events + log + [Header] + report + [Footer];
  }

  /** The execution phase: announce and run each entry in turn. */
  method ExecuteAll<W>(reg: Registry, exec: (W, nat, u32, u64) -> (W, Timings), w0: W)
    returns (w: W, timings: seq<Timings>, log: seq<Event>)
    ensures (w, timings) == Execution(exec, reg.iterations, reg.entries, |reg.entries|, w0)
    ensures log == RunLog(reg.entries, |reg.entries|)
  {
    var entries := reg.entries;
    w := w0;
    timings := [];
    log := [];
    var index := 0;
    while index < |entries|
      invariant index <= |entries|
      invariant (w, timings) == Execution(exec, reg.iterations, entries, index, w0)
      invariant log == RunLog(entries, index)
    {
      var step := exec(w, index, entries[index].threads, reg.iterations);
      log := log + [Running(RunningLine(entries, index)), Executed(index, entries[index].threads)];
      w := step.0;
      timings := timings + [step.1];
      index := index + 1;
    }
  }

  /** The report phase: one block per entry, in insertion order. */
  method Report(entries: seq<Entry>, timings: seq<Timings>, iterations: u64, width: int) returns (report: seq<Event>)
    requires |timings| == |entries|
    ensures report == ReportLog(entries, timings, iterations, width, |entries|)
  {
    report := [];
    var id := 0;
    while id < |entries|
      invariant id <= |entries|
      invariant report == ReportLog(entries, timings, iterations, width, id)
    {
      report := report + EntryReport(entries, timings, iterations, width, id);
      id := id + 1;
    }
  }
}

=== FILE: legacy_util.dfy ===
/**
 * The older `AnyObject<IBase, Derived, Other...>` of `benchmark/util.hpp`,
 * driven by a shared `Random`. Types are numbered as in `Util`: 0 for
 * `Derived` up to k - 1 for the last of `Other`. Every level of a `push`
 * draws one number and builds its own type when the draw is even; the last
 * level builds nothing on an odd draw.
 */
module LegacyUtil {
  import opened Machine
  import Random

  /** The `objects` vector and the generator `_rand` refers to. */
  datatype Pool = Pool(objects: seq<nat>, rng: Random.Generator)

  /** The draws `push` makes at levels `base .. base+k-1`: at most one object, and it is of one of those types. */
  function Push(p: Pool, k: nat, base: nat): (r: Pool)
    requires k >= 1
    ensures |p.objects| <= |r.objects| <= |p.objects| + 1
    ensures r.objects[..|p.objects|] == p.objects
    ensures |r.objects| > |p.objects| ==> base <= r.objects[|p.objects|] < base + k
    ensures |r.objects| > |p.objects| ==>
              var j := r.objects[|p.objects|] - base;
              var draws := Random.Outputs(p.rng, j + 1);
              r.rng == Random.Advance(p.rng, j + 1) && draws[j] % 2 == 0
              && forall i :: 0 <= i < j ==> draws[i] % 2 == 1
    ensures |r.objects| == |p.objects| ==>
              r.rng == Random.Advance(p.rng, k) && forall i :: 0 <= i < k ==> Random.Outputs(p.rng, k)[i] % 2 == 1
    decreases k
  {
    var (g, x) := Random.Next(p.rng);
    if x % 2 == 0 then Pool(p.objects + [base], g)
    else if k == 1 then Pool(p.objects, g)
    else
      var r := Push(Pool(p.objects, g), k - 1, base + 1);
      OutputsStep(p.rng, k - 1);
      if |r.objects| > |p.objects| then
        var j := r.objects[|p.objects|] - base;
        OutputsStep(p.rng, j - 1);
        r
      else
        r
  }

  /** The first n + 1 outputs are the next output followed by the n outputs after it. */
  lemma OutputsStep(g: Random.Generator, n: nat)
    ensures Random.Outputs(g, n + 1) == [Random.Next(g).1] + Random.Outputs(Random.Next(g).0, n)
    ensures Random.Advance(g, n + 1) == Random.Advance(Random.Next(g).0, n)
  {
  }

  /** The first level keeps its type exactly when its draw is even; an odd draw on a single-type pool adds nothing. */
  lemma PushFirstDraw(p: Pool, k: nat)
    requires k >= 1
    ensures Random.Next(p.rng).1 % 2 == 0 ==> Push(p, k, 0).objects == p.objects + [0]
    ensures Random.Next(p.rng).1 % 2 == 1 && k == 1 ==> Push(p, k, 0).objects == p.objects
  {
  }

  /** `fill(n, args...)` of the multi-type form: n pushes, so at most n new objects. */
  function Fill(p: Pool, k: nat, n: nat): (r: Pool)
    requires k >= 2
    ensures |p.objects| <= |r.objects| <= |p.objects| + n
    ensures r.objects[..|p.objects|] == p.objects
    ensures forall j :: |p.objects| <= j < |r.objects| ==> r.objects[j] < k
    decreases n
  {
    if n == 0 then p
    else
      var p1 := Push(p, k, 0);
      var r := Fill(p1, k, n - 1);
      assert r.objects[..|p.objects|] == r.objects[..|p1.objects|][..|p.objects|];
      assert forall j :: |p.objects| <= j < |p1.objects| ==> r.objects[j] == r.objects[..|p1.objects|][j];
      r
  }

  /** `one()`: the next draw reduced modulo the size picks the object; the generator moves one step. */
  function One(p: Pool): (r: (Pool, nat))
    requires |p.objects| > 0
    ensures r.0.objects == p.objects
    ensures exists i :: 0 <= i < |p.objects| && r.1 == p.objects[i]
    ensures r.0.rng == Random.Advance(p.rng, 1)
    ensures r.1 == p.objects[Random.Outputs(p.rng, 1)[0] % |p.objects|]
  {
    var (g, x) := Random.Next(p.rng);
    var index := x % |p.objects|;
    (Pool(p.objects, g), p.objects[index])
  }

  /** `clear()`: no objects remain; the generator is untouched. */
  function Clear(p: Pool): (r: Pool)
    ensures |r.objects| == 0 && r.rng == p.rng
  {
    Pool([], p.rng)
  }
}

=== FILE: machine.dfy ===
/**
 * Fixed-width machine integers used throughout the harness: `std::uint64_t`
 * counters, `unsigned` thread counts, and the C++ conversions that wrap or
 * truncate. Dafny integers are unbounded, so every wrap is written out here.
 */
module Machine {

  const U64_LIMIT: int := 0x1_0000_0000_0000_0000
  const U32_LIMIT: int := 0x1_0000_0000
  const I64_LIMIT: int := 0x8000_0000_0000_0000

  /** A value that may be absent. */
  datatype Option<T> = None | Some(value: T)

  /** `std::uint64_t`, the harness's `Counter`. */
  type u64 = x: int | 0 <= x < U64_LIMIT

  /** `unsigned`, used for thread counts and thread ids. */
  type u32 = x: int | 0 <= x < U32_LIMIT

  /** Conversion of any integer to `std::uint64_t`: reduction modulo 2^64. */
  function ToU64(x: int): (r: u64)
    ensures (x - r) % U64_LIMIT == 0
    ensures 0 <= x < U64_LIMIT ==> r == x
  {
    x % U64_LIMIT
  }

  /** Conversion of any integer to `unsigned`: reduction modulo 2^32. */
  function ToU32(x: int): (r: u32)
    ensures (x - r) % U32_LIMIT == 0
    ensures 0 <= x < U32_LIMIT ==> r == x
  {
    x % U32_LIMIT
  }

  /**
   * Conversion of an unsigned 64-bit value to a signed 64-bit tick count
   * (two's complement, as C++20 defines it).
   */
  function ToI64(x: u64): (r: int)
    ensures -I64_LIMIT <= r < I64_LIMIT
    ensures x < I64_LIMIT ==> r == x
    ensures (x - r) % U64_LIMIT == 0
  {
    if x < I64_LIMIT then x else x - U64_LIMIT
  }

  /**
   * C++ integer division, which truncates toward zero (Dafny's `/` is
   * Euclidean and rounds negative dividends down instead).
   */
  function TruncDiv(a: int, b: int): (q: int)
    requires b > 0
    ensures a >= 0 ==> q >= 0
    ensures a < 0 ==> q <= 0
  {
    if a >= 0 then a / b else -((-a) / b)
  }

  /** The truncated quotient times the divisor lies within one divisor of the dividend, on the side of zero. */
  lemma TruncDivBounds(a: int, b: int)
    requires b > 0
    ensures a >= 0 ==> TruncDiv(a, b) * b <= a < TruncDiv(a, b) * b + b
    ensures a < 0 ==> TruncDiv(a, b) * b - b < a <= TruncDiv(a, b) * b
  {
    if a >= 0 {
      var q := a / b;
      assert q * b + a % b == a;
    } else {
      var p := (-a) / b;
      assert p * b + (-a) % b == -a;
      assert (-p) * b == -(p * b);
    }
  }

  /** Sum of a sequence of integers, first element first. */
  function Sum(s: seq<int>): int
  {
    if |s| == 0 then 0 else s[0] + Sum(s[1..])
  }

  /** Appending one element adds it to the sum. */
  lemma {:induction false} SumSnoc(s: seq<int>, x: int)
    ensures Sum(s + [x]) == Sum(s) + x
  {
    if |s| == 0 {
      assert s + [x] == [x];
    } else {
      assert (s + [x])[1..] == s[1..] + [x];
      SumSnoc(s[1..], x);
    }
  }

  /** Concatenation is associative. */
  lemma ConcatAssoc<T>(a: seq<T>, b: seq<T>, c: seq<T>)
    ensures (a + b) + c == a + (b + c)
  {
  }
}

=== FILE: malloc.dfy ===
/**
 * The malloc/free example fixtures. Each worker owns a record with a
 * cursor into the size pattern and `allocCount` allocation slots. `Malloc`
 * allocates up to `allocCount` blocks per `run` and frees them all in its
 * epilogue; `Free` allocates all slots in its prologue and frees up to the
 * remaining count of them in `run`. The allocator itself is not modelled:
 * a slot holds either a null pointer or an opaque block of a given size.
 */
module MallocBench {
  import opened Machine
  import opened Hooks = Fixture
  import Engine
  import Util
  import CmdLine

  datatype Handle = Null | Block(size: nat)

  /** Per-worker record: the size cursor, an unused allocation counter, and the slots. */
  datatype ThreadData = ThreadData(nextSize: nat, nextAlloc: nat, slots: seq<Handle>)

  /** The constructor arguments: how many blocks per thread, and the size pattern. */
  datatype Config = Config(allocCount: nat, sizes: seq<nat>)

  /** The fixture's mutable part: one record per worker. */
  datatype State = State(td: seq<ThreadData>)

  /** The size pattern `main` registers both fixtures with. */
  function Pattern(): (p: seq<nat>)
    ensures |p| == 10
  {
    [1, 3, 7, 10, 23, 65, 145, 277, 419, 1023]
  }

  /** A configuration the fixtures can run: a non-empty pattern and a count that fits `size_t`. */
  predicate ValidConfig(c: Config)
  {
    |c.sizes| > 0 && c.allocCount < U64_LIMIT
  }

  /** A worker record as this configuration builds and keeps it. */
  predicate GoodRecord(c: Config, t: ThreadData)
  {
    t.nextSize < |c.sizes| && |t.slots| == c.allocCount
  }

  predicate WellFormed(c: Config, s: State)
  {
    forall k :: 0 <= k < |s.td| ==> GoodRecord(c, s.td[k])
  }

  // ---------------------------------------------------------------------
  // Lifecycle
  // ---------------------------------------------------------------------

  /** `new ThreadData(allocs)`: cursor at the start, `allocs` null slots. */
  function NewThreadData(allocs: nat): (t: ThreadData)
    ensures t.nextSize == 0 && t.nextAlloc == 0 && |t.slots| == allocs
    ensures forall i :: 0 <= i < allocs ==> t.slots[i] == Null
  {
    ThreadData(0, 0, seq(allocs, _ => Null))
  }

  /** `initialize(threads)`: appends one fresh record per thread to whatever is there. */
  function Initialize(c: Config, s: State, threads: u32): (r: State)
    ensures |r.td| == |s.td| + threads as nat
    ensures r.td[..|s.td|] == s.td
    ensures forall k :: |s.td| <= k < |r.td| ==> r.td[k] == NewThreadData(c.allocCount)
  {
    State(s.td + seq(threads, _ => NewThreadData(c.allocCount)))
  }

  /** `finalize()`: drops every record. */
  function Finalize(s: State): (r: State)
    ensures r.td == []
  {
    State([])
  }

  /** After a `finalize`, the next variant's `initialize(t)` leaves exactly t well-formed records. */
  lemma EachVariantSeesItsThreads(c: Config, s: State, threads: u32)
    requires ValidConfig(c)
    ensures var r := Initialize(c, Finalize(s), threads);
            |r.td| == threads as nat && WellFormed(c, r)
  {
  }

  // ---------------------------------------------------------------------
  // The size cursor
  // ---------------------------------------------------------------------

  /** `nextSize++`, wrapping to 0 at the end of the pattern. */
  function Advance(cursor: nat, length: nat): (r: nat)
    requires cursor < length
    ensures r < length
  {
    if cursor + 1 == length then 0 else cursor + 1
  }

  lemma MulSplit(a: nat, d: nat, m: nat)
    ensures (a + d) * m == a * m + d * m
  {
  }

  lemma {:induction false} MulAtLeast(d: nat, m: nat)
    requires d >= 1
    ensures d * m >= m
  {
    if d > 1 {
      MulAtLeast(d - 1, m);
      MulSplit(d - 1, 1, m);
    }
  }

  /** Division with remainder is unique: a representation q * m + r with r < m gives the remainder. */
  lemma ModUnique(x: nat, m: nat, q: nat, r: nat)
    requires m > 0 && x == q * m + r && r < m
    ensures x % m == r
  {
    var q' := x / m;
    var r' := x % m;
    assert x == q' * m + r';
    if q' < q {
      MulSplit(q', q - q', m);
      MulAtLeast(q - q', m);
    } else if q' > q {
      MulSplit(q, q' - q, m);
      MulAtLeast(q' - q, m);
    }
  }

  /** Advancing the cursor is adding one modulo the pattern length. */
  lemma AdvanceCycles(x: nat, length: nat)
    requires length > 0
    ensures Advance(x % length, length) == (x + 1) % length
  {
    var q := x / length;
    var r := x % length;
    assert x == q * length + r;
    if r + 1 == length {
      assert x + 1 == (q + 1) * length + 0;
      ModUnique(x + 1, length, q + 1, 0);
    } else {
      ModUnique(x + 1, length, q, r + 1);
    }
  }

  /**
   * The allocation loop shared by `Malloc::run` and `Free::prologue`:
   * slots 0 .. n-1 receive blocks whose sizes continue the pattern from
   * the cursor, and the cursor moves on by n, modulo the pattern length.
   */
  function Allocate(sizes: seq<nat>, t: ThreadData, n: nat): (r: ThreadData)
    requires |sizes| > 0 && t.nextSize < |sizes| && n <= |t.slots|
    ensures |r.slots| == |t.slots| && r.nextAlloc == t.nextAlloc
    ensures r.nextSize < |sizes| && r.nextSize == (t.nextSize + n) % |sizes|
    ensures forall i :: 0 <= i < n ==> r.slots[i] == Block(sizes[(t.nextSize + i) % |sizes|])
    ensures forall i :: n <= i < |t.slots| ==> r.slots[i] == t.slots[i]
  {
    if n == 0 then
      ModUnique(t.nextSize, |sizes|, 0, t.nextSize);
      t
    else
      var p := Allocate(sizes, t, n - 1);
      AdvanceCycles(t.nextSize + (n - 1), |sizes|);
      p.(nextSize := Advance(p.nextSize, |sizes|), slots := p.slots[n - 1 := Block(sizes[p.nextSize])])
  }

  // ---------------------------------------------------------------------
  // Malloc
  // ---------------------------------------------------------------------

  function Min(a: nat, b: nat): nat
  {
    if a <= b then a else b
  }

  /** `Malloc::run`: allocate n = min(iterations, allocCount) blocks into the thread's first n slots, return the rest. */
  function MallocRun(c: Config, s: State, iterations: Counter, tid: Tid): (r: (State, Counter))
    requires ValidConfig(c) && WellFormed(c, s) && tid < |s.td|
    ensures r.1 == iterations - Min(iterations, c.allocCount)
    ensures r.1 == Engine.Chunk(iterations, c.allocCount)
    ensures WellFormed(c, r.0) && |r.0.td| == |s.td|
    ensures forall k :: 0 <= k < |s.td| && k != tid ==> r.0.td[k] == s.td[k]
    ensures var n := Min(iterations, c.allocCount);
            var before := s.td[tid].slots;
            var after := r.0.td[tid].slots;
            && (forall i :: 0 <= i < n ==> after[i].Block?)
            && (forall i :: n <= i < |before| ==> after[i] == before[i])
  {
    var n := Min(iterations, c.allocCount);
    var t := Allocate(c.sizes, s.td[tid], n);
    (State(s.td[tid := t]), iterations - n)
  }

  /** `Malloc::epilogue`: every slot of this thread becomes null; nothing else changes. */
  function MallocEpilogue(c: Config, s: State, tid: Tid): (r: State)
    requires WellFormed(c, s) && tid < |s.td|
    ensures WellFormed(c, r) && |r.td| == |s.td|
    ensures forall i :: 0 <= i < |r.td[tid].slots| ==> r.td[tid].slots[i] == Null
    ensures r.td[tid].nextSize == s.td[tid].nextSize
    ensures forall k :: 0 <= k < |s.td| && k != tid ==> r.td[k] == s.td[k]
  {
    var t := s.td[tid];
    State(s.td[tid := t.(slots := seq(|t.slots|, _ => Null))])
  }

  /**
   * The Malloc fixture as the engine sees it. A tid without a record, or
   * a record this configuration did not build, is undefined behaviour in
   * the source; the model then leaves the state alone.
   */
  function MallocFixture(c: Config): (f: Fixture<State>)
    ensures forall s: State, i: Counter, t: Tid :: f.run(s, i, t).1 == Engine.Chunk(i, c.allocCount)
  {
    Hooks.Fixture(
      (s: State, threads: u32) => Initialize(c, s, threads),
      (s: State, t: Tid) => s,
      (s: State, i: Counter, t: Tid) =>
        if ValidConfig(c) && WellFormed(c, s) && t < |s.td| then MallocRun(c, s, i, t)
        else (s, Engine.Chunk(i, c.allocCount)),
      (s: State, t: Tid) => if WellFormed(c, s) && t < |s.td| then MallocEpilogue(c, s, t) else s,
      (s: State) => Finalize(s))
  }

  /** With at least one allocation per pass, the engine's loop over Malloc ends. */
  lemma MallocProgress(c: Config)
    requires c.allocCount > 0
    ensures Progress(MallocFixture(c))
  {
  }

  /** Malloc is run ceil(iterations / allocCount) times per thread. */
  lemma MallocPasses(c: Config, s: State, iterations: Counter, tid: Tid)
    requires c.allocCount > 0
    ensures Progress(MallocFixture(c))
    ensures var k := |Engine.Loop(MallocFixture(c), s, iterations, tid).1|;
            (k - 1) * c.allocCount < iterations <= k * c.allocCount
  {
    Engine.ChunkedRunCount(MallocFixture(c), s, iterations, tid, c.allocCount);
  }

  /**
   * The Malloc loop of one thread as the fixture's own code runs it:
   * every `run` is `MallocRun` on the thread's record and every
   * `epilogue` is `MallocEpilogue`, with no fallback case.
   */
  function MallocLoop(c: Config, s: State, remaining: Counter, tid: Tid): (r: (State, seq<Engine.Pass>))
    requires ValidConfig(c) && c.allocCount > 0 && WellFormed(c, s) && tid < |s.td|
    ensures WellFormed(c, r.0) && |r.0.td| == |s.td|
    decreases remaining
  {
    if remaining == 0 then (s, [])
    else
      var (s2, rest) := MallocRun(c, s, remaining, tid);
      var (sEnd, more) := MallocLoop(c, MallocEpilogue(c, s2, tid), rest, tid);
      (sEnd, [Engine.Pass(remaining, rest)] + more)
  }

  /**
   * Started on well-formed records with a record for its thread, as every
   * variant is after `finalize` and `initialize`, the engine's loop over
   * the Malloc fixture never reaches the fallback: it is `MallocLoop`, so
   * `m_td[tid]` is always in bounds.
   */
  lemma {:induction false} MallocLoopStaysInBounds(c: Config, s: State, remaining: Counter, tid: Tid)
    requires ValidConfig(c) && c.allocCount > 0 && WellFormed(c, s) && tid < |s.td|
    ensures Progress(MallocFixture(c))
    ensures Engine.Loop(MallocFixture(c), s, remaining, tid) == MallocLoop(c, s, remaining, tid)
    decreases remaining
  {
    var f := MallocFixture(c);
    MallocProgress(c);
    if remaining > 0 {
      var (s2, rest) := f.run(f.prologue(s, tid), remaining, tid);
      assert (s2, rest) == MallocRun(c, s, remaining, tid);
      Engine.LoopStep(f, s, remaining, tid, s2, rest);
      MallocLoopStaysInBounds(c, MallocEpilogue(c, s2, tid), rest, tid);
    }
  }

  /** Every variant's threads run in bounds: after `finalize` and `initialize(t)`, each tid below t gets `MallocLoop`. */
  lemma MallocVariantInBounds(c: Config, s: State, threads: u32, remaining: Counter, tid: Tid)
    requires ValidConfig(c) && c.allocCount > 0 && tid < threads as nat
    ensures var s1 := Initialize(c, Finalize(s), threads);
            Progress(MallocFixture(c)) && WellFormed(c, s1) && tid < |s1.td|
            && Engine.Loop(MallocFixture(c), s1, remaining, tid) == MallocLoop(c, s1, remaining, tid)
  {
    EachVariantSeesItsThreads(c, s, threads);
    MallocLoopStaysInBounds(c, Initialize(c, Finalize(s), threads), remaining, tid);
  }

  /** With no allocations per pass `run` hands back its whole count, so the engine's loop would never end. */
  lemma ZeroAllocationsStall(c: Config, s: State, iterations: Counter, tid: Tid)
    requires c.allocCount == 0
    ensures MallocFixture(c).run(s, iterations, tid).1 == iterations
    ensures !Progress(MallocFixture(c))
  {
    assert MallocFixture(c).run(s, 1, 0).1 == 1;
  }

  /** `-a 0` passes `bindArg`, which checks only that the value parses, and yields a Malloc fixture that stalls. */
  lemma ZeroAllocationsAccepted()
    ensures Util.BindArg([CmdLine.Arg("-a", "0")], "-a", 10 * 1024, U64_LIMIT - 1, "-a must be a positive integer")
            == Util.Bound(0)
    ensures !Progress(MallocFixture(Config(0, Pattern())))
  {
    Util.BindArgAcceptsZero(10 * 1024);
    ZeroAllocationsStall(Config(0, Pattern()), State([]), 1, 0);
  }

  // ---------------------------------------------------------------------
  // Free
  // ---------------------------------------------------------------------

  /** `Free::prologue`: refills all `allocCount` slots from the cursor. */
  function FreePrologue(c: Config, s: State, tid: Tid): (r: State)
    requires ValidConfig(c) && WellFormed(c, s) && tid < |s.td|
    ensures WellFormed(c, r) && |r.td| == |s.td|
    ensures forall i :: 0 <= i < c.allocCount ==> r.td[tid].slots[i].Block?
    ensures forall k :: 0 <= k < |s.td| && k != tid ==> r.td[k] == s.td[k]
  {
    State(s.td[tid := Allocate(c.sizes, s.td[tid], c.allocCount)])
  }

  /**
   * The loop of `Free::run` from slot k on: free and null the slot, then
   * decrement the 64-bit count and stop when it reaches zero.
   */
  function Release(slots: seq<Handle>, k: nat, iterations: Counter): (r: (seq<Handle>, Counter))
    requires k <= |slots| < U64_LIMIT
    ensures |r.0| == |slots|
    ensures forall i :: 0 <= i < k ==> r.0[i] == slots[i]
    ensures iterations > 0 ==>
              var m := Min(iterations, |slots| - k);
              && r.1 == iterations - m
              && (forall i :: k <= i < k + m ==> r.0[i] == Null)
              && (forall i :: k + m <= i < |slots| ==> r.0[i] == slots[i])
    ensures iterations == 0 ==>
              r.1 == ToU64(-(|slots| - k)) && forall i :: k <= i < |slots| ==> r.0[i] == Null
    decreases |slots| - k
  {
    if k == |slots| then (slots, iterations)
    else
      var left := ToU64(iterations - 1);
      var freed := slots[k := Null];
      if left == 0 then (freed, 0)
      else
        var r := Release(freed, k + 1, left);
        assert iterations == 0 ==> left == U64_LIMIT - 1;
        r
  }

  /** `Free::run`: frees min(iterations, slots) of the thread's blocks, front first, and returns the rest. */
  function FreeRun(s: State, iterations: Counter, tid: Tid): (r: (State, Counter))
    requires tid < |s.td| && |s.td[tid].slots| < U64_LIMIT
    ensures |r.0.td| == |s.td| && r.0.td[tid].nextSize == s.td[tid].nextSize
    ensures |r.0.td[tid].slots| == |s.td[tid].slots|
    ensures forall k :: 0 <= k < |s.td| && k != tid ==> r.0.td[k] == s.td[k]
    ensures iterations > 0 ==> r.1 == iterations - Min(iterations, |s.td[tid].slots|)
  {
    var t := s.td[tid];
    var (slots, rest) := Release(t.slots, 0, iterations);
    (State(s.td[tid := t.(slots := slots)]), rest)
  }

  /** Called with a zero count, which the engine never does, `Free::run` wraps below zero and frees every slot. */
  lemma FreeRunAtZeroWraps(s: State, tid: Tid)
    requires tid < |s.td| && 0 < |s.td[tid].slots| < U64_LIMIT
    ensures FreeRun(s, 0, tid).1 == U64_LIMIT - |s.td[tid].slots|
  {
  }

  /** One pass of the Free fixture as written: `prologue`, then `run`; its `epilogue` is the base class's no-op. */
  function FreePass(c: Config, s: State, iterations: Counter, tid: Tid): (r: (State, Counter))
    requires ValidConfig(c) && WellFormed(c, s) && tid < |s.td|
    ensures WellFormed(c, r.0) && |r.0.td| == |s.td|
    ensures iterations > 0 ==> r.1 == Engine.Chunk(iterations, c.allocCount)
  {
    FreeRun(FreePrologue(c, s, tid), iterations, tid)
  }

  /**
   * On the last pass, when fewer iterations remain than there are slots,
   * `run` frees only that many: the other blocks are still allocated when
   * the loop ends, and `finalize` drops the records that point to them.
   */
  lemma FreeLastPassLeaks(c: Config, s: State, iterations: Counter, tid: Tid)
    requires ValidConfig(c) && WellFormed(c, s) && tid < |s.td|
    requires 0 < iterations < c.allocCount
    ensures var (s', rest) := FreePass(c, s, iterations, tid);
            && rest == 0
            && (forall i :: iterations <= i < c.allocCount ==> s'.td[tid].slots[i].Block?)
            && Finalize(s').td == []
  {
  }

  /** Frees and nulls every slot of the thread: what the Free fixture needs after its last pass. */
  function ReleaseAll(c: Config, s: State, tid: Tid): (r: State)
    requires WellFormed(c, s) && tid < |s.td|
    ensures WellFormed(c, r) && |r.td| == |s.td|
    ensures forall i :: 0 <= i < |r.td[tid].slots| ==> r.td[tid].slots[i] == Null
    ensures forall k :: 0 <= k < |s.td| && k != tid ==> r.td[k] == s.td[k]
  {
    MallocEpilogue(c, s, tid)
  }

  /**
   * The Free fixture with an epilogue that releases what `run` left, so
   * every pass ends with no block held. Ill-formed states are handled as
   * for the Malloc fixture.
   */
  function FreeFixture(c: Config): (f: Fixture<State>)
    ensures forall s: State, i: Counter, t: Tid :: i > 0 ==> f.run(s, i, t).1 == Engine.Chunk(i, c.allocCount)
  {
    Hooks.Fixture(
      (s: State, threads: u32) => Initialize(c, s, threads),
      (s: State, t: Tid) => if ValidConfig(c) && WellFormed(c, s) && t < |s.td| then FreePrologue(c, s, t) else s,
      (s: State, i: Counter, t: Tid) =>
        if ValidConfig(c) && WellFormed(c, s) && t < |s.td| then FreeRun(s, i, t)
        else (s, Engine.Chunk(i, c.allocCount)),
      (s: State, t: Tid) => if WellFormed(c, s) && t < |s.td| then ReleaseAll(c, s, t) else s,
      (s: State) => Finalize(s))
  }

  /** Every pass of the corrected Free fixture, whatever the count, ends with all of the thread's slots null. */
  lemma FreeFixtureLeavesNothing(c: Config, s: State, iterations: Counter, tid: Tid)
    requires ValidConfig(c) && WellFormed(c, s) && tid < |s.td|
    ensures var f := FreeFixture(c);
            var (s2, rest) := f.run(f.prologue(s, tid), iterations, tid);
            var s3 := f.epilogue(s2, tid);
            && WellFormed(c, s3)
            && forall i :: 0 <= i < c.allocCount ==> s3.td[tid].slots[i] == Null
  {
  }

  /**
   * The corrected Free loop of one thread as the fixture's own code runs
   * it: `FreePrologue`, `FreeRun` and `ReleaseAll` on the thread's record,
   * with no fallback case.
   */
  function FreeLoop(c: Config, s: State, remaining: Counter, tid: Tid): (r: (State, seq<Engine.Pass>))
    requires ValidConfig(c) && c.allocCount > 0 && WellFormed(c, s) && tid < |s.td|
    ensures WellFormed(c, r.0) && |r.0.td| == |s.td|
    decreases remaining
  {
    if remaining == 0 then (s, [])
    else
      var (s2, rest) := FreePass(c, s, remaining, tid);
      var (sEnd, more) := FreeLoop(c, ReleaseAll(c, s2, tid), rest, tid);
      (sEnd, [Engine.Pass(remaining, rest)] + more)
  }

  /** Started on well-formed records with one for its thread, the engine's loop over the Free fixture is `FreeLoop`. */
  lemma {:induction false} FreeLoopStaysInBounds(c: Config, s: State, remaining: Counter, tid: Tid)
    requires ValidConfig(c) && c.allocCount > 0 && WellFormed(c, s) && tid < |s.td|
    ensures Progress(FreeFixture(c))
    ensures Engine.Loop(FreeFixture(c), s, remaining, tid) == FreeLoop(c, s, remaining, tid)
    decreases remaining
  {
    var f := FreeFixture(c);
    FreePasses(c, s, remaining, tid);
    if remaining > 0 {
      var (s2, rest) := f.run(f.prologue(s, tid), remaining, tid);
      assert (s2, rest) == FreePass(c, s, remaining, tid);
      Engine.LoopStep(f, s, remaining, tid, s2, rest);
      FreeLoopStaysInBounds(c, ReleaseAll(c, s2, tid), rest, tid);
    }
  }

  /** After `finalize` and `initialize(t)`, each tid below t runs the Free fixture as `FreeLoop`. */
  lemma FreeVariantInBounds(c: Config, s: State, threads: u32, remaining: Counter, tid: Tid)
    requires ValidConfig(c) && c.allocCount > 0 && tid < threads as nat
    ensures var s1 := Initialize(c, Finalize(s), threads);
            Progress(FreeFixture(c)) && WellFormed(c, s1) && tid < |s1.td|
            && Engine.Loop(FreeFixture(c), s1, remaining, tid) == FreeLoop(c, s1, remaining, tid)
  {
    EachVariantSeesItsThreads(c, s, threads);
    FreeLoopStaysInBounds(c, Initialize(c, Finalize(s), threads), remaining, tid);
  }

  /** With at least one slot, the engine runs the Free fixture ceil(iterations / allocCount) times per thread. */
  lemma FreePasses(c: Config, s: State, iterations: Counter, tid: Tid)
    requires c.allocCount > 0
    ensures Progress(FreeFixture(c))
    ensures var k := |Engine.Loop(FreeFixture(c), s, iterations, tid).1|;
            (k - 1) * c.allocCount < iterations <= k * c.allocCount
  {
    Engine.ChunkedRunCount(FreeFixture(c), s, iterations, tid, c.allocCount);
  }
}

=== FILE: random.dfy ===
/**
 * `Random`: a xorshift64* generator. The state is a 64-bit word; each step
 * applies three xor-shifts, stores the result and returns it multiplied by
 * a constant modulo 2^64.
 */
module Random {
  import opened Machine

  const MULTIPLIER: int := 0x2545_F491_4F6C_DD1D

  datatype Generator = Generator(state: bv64)

  /** The constructor: `(seed << 1) | 1`, so the state is odd and never zero. */
  function Make(seed: bv64): (g: Generator)
    ensures g.state & 1 == 1
    ensures g.state != 0
  {
    Generator((seed << 1) | 1)
  }

  /** The three xor-shifts of one step. */
  function Shuffle(x: bv64): bv64
  {
    XorRight27(XorLeft25(XorRight12(x)))
  }

  function XorRight12(x: bv64): bv64 { x ^ (x >> 12) }

  function XorLeft25(x: bv64): bv64 { x ^ (x << 25) }

  function XorRight27(x: bv64): bv64 { x ^ (x >> 27) }

  /** `operator()()`: the next state and the output `state * MULTIPLIER mod 2^64`. */
  function Next(g: Generator): (r: (Generator, u64))
  {
    var x := Shuffle(g.state);
    (Generator(x), ((x as int) * MULTIPLIER) % U64_LIMIT)
  }

  /** The state after n steps. */
  function Advance(g: Generator, n: nat): Generator
    decreases n
  {
    if n == 0 then g else Advance(Next(g).0, n - 1)
  }

  /** The first n outputs. */
  function Outputs(g: Generator, n: nat): (r: seq<u64>)
    ensures |r| == n
    decreases n
  {
    if n == 0 then [] else [Next(g).1] + Outputs(Next(g).0, n - 1)
  }

  lemma XorRight12KeepsNonZero(x: bv64)
    requires x != 0
    ensures XorRight12(x) != 0
  {
  }

  lemma XorLeft25KeepsNonZero(x: bv64)
    requires x != 0
    ensures XorLeft25(x) != 0
  {
  }

  lemma XorRight27KeepsNonZero(x: bv64)
    requires x != 0
    ensures XorRight27(x) != 0
  {
  }

  /** Each of the three xor-shifts is invertible, so a step never maps a non-zero state to zero. */
  lemma ShuffleKeepsNonZero(x: bv64)
    requires x != 0
    ensures Shuffle(x) != 0
  {
    XorRight12KeepsNonZero(x);
    XorLeft25KeepsNonZero(XorRight12(x));
    XorRight27KeepsNonZero(XorLeft25(XorRight12(x)));
  }

  /** Starting from the constructor's state, the generator never reaches the all-zero fixed point. */
  lemma {:induction false} NeverZero(g: Generator, n: nat)
    requires g.state != 0
    ensures Advance(g, n).state != 0
    decreases n
  {
    if n > 0 {
      ShuffleKeepsNonZero(g.state);
      NeverZero(Next(g).0, n - 1);
    }
  }

  lemma SeededNeverZero(seed: bv64, n: nat)
    ensures Advance(Make(seed), n).state != 0
  {
    NeverZero(Make(seed), n);
  }

  /** The shift drops bit 63 of the seed: seeds that differ only there give identical generators. */
  lemma TopSeedBitIgnored(seed: bv64, n: nat)
    ensures Make(seed ^ 0x8000_0000_0000_0000) == Make(seed)
    ensures Outputs(Make(seed ^ 0x8000_0000_0000_0000), n) == Outputs(Make(seed), n)
  {
    assert (seed ^ 0x8000_0000_0000_0000) << 1 == seed << 1;
  }

  /**
   * `operator()(T max)` for `T = std::uint64_t`, as written: the next output
   * modulo `max + 1`, where the sum wraps. For `max = 2^64 - 1` the divisor
   * wraps to zero and the modulo divides by zero, shown here as `None`.
   */
  function BoundedAsWritten(g: Generator, max: u64): (r: Option<(Generator, u64)>)
    ensures r.None? <==> max == U64_LIMIT - 1
  {
    var (g', x) := Next(g);
    var divisor := ToU64(max + 1);
    if divisor == 0 then None else Some((g', x % divisor))
  }

  /** The division by zero is reached by the largest argument. */
  lemma BoundedAsWrittenDividesByZero(g: Generator)
    ensures BoundedAsWritten(g, U64_LIMIT - 1) == None
  {
  }

  /**
   * `operator()(max)` as evidently intended: a value in `[0, max]` for
   * every `max`, the full output when the range is the whole word.
   */
  function Bounded(g: Generator, max: u64): (r: (Generator, u64))
    ensures r.1 <= max
    ensures r.0 == Next(g).0
    ensures max < U64_LIMIT - 1 ==> BoundedAsWritten(g, max) == Some(r)
    ensures max == U64_LIMIT - 1 ==> r.1 == Next(g).1
  {
    var (g', x) := Next(g);
    if max == U64_LIMIT - 1 then (g', x) else (g', x % (max + 1))
  }
}

=== FILE: runner.dfy ===
/**
 * `Runner::run` of the registry in src/runner.cpp: print the caption, run
 * every thread-count variant of every registered benchmark in
 * registration order, then print a header, one result block per variant
 * (in the same order) and a footer.
 *
 * The benchmarks own fixtures of unrelated types, so executing one variant
 * is an abstract step `exec(w, index, threads, iterations)` over a world
 * `w` that stands for all fixture state; `Engine.RunThreads` is what the
 * source calls there. Terminal drawing and the floating-point columns are
 * not modelled: an event records what a printed line is made of.
 */
module Runner {
  import opened Machine
  import opened Fixture
  import Engine
  import Chrono
  import Decimal

  /** A registered benchmark: its name and the thread counts to run it with. */
  datatype Entry = Entry(name: string, threads: seq<u32>)

  datatype Registry = Registry(name: string, iterations: Counter, entries: seq<Entry>)

  /** One (benchmark, variant) position. */
  datatype Slot = Slot(index: nat, variant: nat)

  /** Executing one variant: world, benchmark index, thread count, iterations. */
  type Execute<!W> = (W, nat, u32, Counter) -> (W, Engine.Data)

  datatype Event =
    | Caption(text: string)
    | Running(line: string)
    | Executed(index: nat, variant: nat, threads: u32)
    | Header
    | NameHeader(name: string, underline: u32)
    | Row(threads: u32, totalUs: u64, baselineNs: u64, userMs: u64, systemMs: Option<u64>)
    | Footer

  // ---------------------------------------------------------------------
  // The schedule
  // ---------------------------------------------------------------------

  predicate ValidSlot(entries: seq<Entry>, s: Slot)
  {
    s.index < |entries| && s.variant < |entries[s.index].threads|
  }

  /** Lexicographic order: benchmark first, then variant. */
  predicate Precedes(a: Slot, b: Slot)
  {
    a.index < b.index || (a.index == b.index && a.variant < b.variant)
  }

  /** The first `n` variants of benchmark `index`. */
  function VariantSlots(index: nat, n: nat): (r: seq<Slot>)
    ensures |r| == n
    ensures forall v :: 0 <= v < n ==> r[v] == Slot(index, v)
  {
    seq(n, v requires 0 <= v < n => Slot(index, v))
  }

  /** Every variant of the first `k` benchmarks, in the order the nested loops visit them. */
  function Slots(entries: seq<Entry>, k: nat): (r: seq<Slot>)
    requires k <= |entries|
    ensures forall j :: 0 <= j < |r| ==> ValidSlot(entries, r[j]) && r[j].index < k
  {
    if k == 0 then [] else Slots(entries, k - 1) + VariantSlots(k - 1, |entries[k - 1].threads|)
  }

  function AllSlots(entries: seq<Entry>): seq<Slot>
  {
    Slots(entries, |entries|)
  }

  /** The schedule visits exactly the existing variants of the first `k` benchmarks. */
  lemma {:induction false} SlotsCover(entries: seq<Entry>, k: nat, s: Slot)
    requires k <= |entries|
    ensures s in Slots(entries, k) <==> s.index < k && ValidSlot(entries, s)
  {
    if k > 0 {
      SlotsCover(entries, k - 1, s);
      var last := VariantSlots(k - 1, |entries[k - 1].threads|);
      if s in last {
        var v :| 0 <= v < |last| && last[v] == s;
      }
      if s.index == k - 1 && s.variant < |entries[k - 1].threads| {
        assert last[s.variant] == s;
      }
    }
  }

  /** The schedule is strictly increasing, so no variant runs twice and the order is lexicographic. */
  lemma {:induction false} SlotsInOrder(entries: seq<Entry>, k: nat)
    requires k <= |entries|
    ensures forall a, b :: 0 <= a < b < |Slots(entries, k)| ==> Precedes(Slots(entries, k)[a], Slots(entries, k)[b])
  {
    if k > 0 {
      SlotsInOrder(entries, k - 1);
      var front := Slots(entries, k - 1);
      var last := VariantSlots(k - 1, |entries[k - 1].threads|);
      var all := Slots(entries, k);
      assert all == front + last;
      forall a, b | 0 <= a < b < |all|
        ensures Precedes(all[a], all[b])
      {
        if b < |front| {
          assert all[a] == front[a] && all[b] == front[b];
        } else if a < |front| {
          assert all[a] == front[a];
          assert front[a] in Slots(entries, k - 1);
          SlotsCover(entries, k - 1, front[a]);
          assert all[b] == last[b - |front|];
        } else {
          assert all[a] == last[a - |front|] && all[b] == last[b - |front|];
        }
      }
    }
  }

  // ---------------------------------------------------------------------
  // What gets executed
  // ---------------------------------------------------------------------

  /** Executing the first `n` variants of benchmark `index`, starting from world `w`. */
  function VariantRuns<W>(exec: Execute<W>, iterations: Counter, entries: seq<Entry>, index: nat, n: nat, w: W): (r: (W, seq<Engine.Data>))
    requires index < |entries| && n <= |entries[index].threads|
    ensures |r.1| == n
  {
    if n == 0 then (w, [])
    else
      var (w1, row) := VariantRuns(exec, iterations, entries, index, n - 1, w);
      var (w2, d) := exec(w1, index, entries[index].threads[n - 1], iterations);
      (w2, row + [d])
  }

  /** Executing every variant of the first `k` benchmarks: one result row per benchmark. */
  function Execution<W>(exec: Execute<W>, iterations: Counter, entries: seq<Entry>, k: nat, w: W): (r: (W, seq<seq<Engine.Data>>))
    requires k <= |entries|
    ensures |r.1| == k
    ensures forall i :: 0 <= i < k ==> |r.1[i]| == |entries[i].threads|
  {
    if k == 0 then (w, [])
    else
      var (w1, data) := Execution(exec, iterations, entries, k - 1, w);
      var (w2, row) := VariantRuns(exec, iterations, entries, k - 1, |entries[k - 1].threads|, w1);
      (w2, data + [row])
  }

  /** Executing an arbitrary list of slots one after another: the reference order. */
  function ExecuteSlots<W>(exec: Execute<W>, iterations: Counter, entries: seq<Entry>, slots: seq<Slot>, w: W): (r: (W, seq<Engine.Data>))
    requires forall j :: 0 <= j < |slots| ==> ValidSlot(entries, slots[j])
    ensures |r.1| == |slots|
  {
    if |slots| == 0 then (w, [])
    else
      var last := slots[|slots| - 1];
      assert ValidSlot(entries, last);
      var (w1, ds) := ExecuteSlots(exec, iterations, entries, slots[..|slots| - 1], w);
      var (w2, d) := exec(w1, last.index, entries[last.index].threads[last.variant], iterations);
      (w2, ds + [d])
  }

  function Flatten<T>(rows: seq<seq<T>>): seq<T>
  {
    if |rows| == 0 then [] else Flatten(rows[..|rows| - 1]) + rows[|rows| - 1]
  }

  lemma {:induction false} ExecuteSlotsAppend<W>(exec: Execute<W>, iterations: Counter, entries: seq<Entry>, a: seq<Slot>, b: seq<Slot>, w: W)
    requires forall j :: 0 <= j < |a| ==> ValidSlot(entries, a[j])
    requires forall j :: 0 <= j < |b| ==> ValidSlot(entries, b[j])
    ensures var first := ExecuteSlots(exec, iterations, entries, a, w);
            var second := ExecuteSlots(exec, iterations, entries, b, first.0);
            ExecuteSlots(exec, iterations, entries, a + b, w) == (second.0, first.1 + second.1)
    decreases |b|
  {
    if |b| > 0 {
      var b' := b[..|b| - 1];
      assert (a + b)[..|a + b| - 1] == a + b';
      ExecuteSlotsAppend(exec, iterations, entries, a, b', w);
      var (w1, da) := ExecuteSlots(exec, iterations, entries, a, w);
      var (w2, db) := ExecuteSlots(exec, iterations, entries, b', w1);
      var last := b[|b| - 1];
      assert ValidSlot(entries, last);
      var (w3, d) := exec(w2, last.index, entries[last.index].threads[last.variant], iterations);
      assert (a + b)[|a + b| - 1] == last;
      assert ExecuteSlots(exec, iterations, entries, a + b, w) == (w3, da + db + [d]);
      assert ExecuteSlots(exec, iterations, entries, b, w1) == (w3, db + [d]);
      ConcatAssoc(da, db, [d]);
    } else {
      assert a + b == a;
      var first := ExecuteSlots(exec, iterations, entries, a, w);
      assert first.1 + [] == first.1;
    }
  }

  lemma {:induction false} VariantRunsFollowSlots<W>(exec: Execute<W>, iterations: Counter, entries: seq<Entry>, index: nat, n: nat, w: W)
    requires index < |entries| && n <= |entries[index].threads|
    ensures VariantRuns(exec, iterations, entries, index, n, w)
            == ExecuteSlots(exec, iterations, entries, VariantSlots(index, n), w)
  {
    if n > 0 {
      VariantRunsFollowSlots(exec, iterations, entries, index, n - 1, w);
      assert VariantSlots(index, n)[..n - 1] == VariantSlots(index, n - 1);
    }
  }

  /**
   * The nested loops execute the variants in schedule order: the flattened
   * results are exactly those of running the schedule slot by slot, so each
   * variant sees the world every earlier variant left.
   */
  lemma {:induction false} ExecutionFollowsSchedule<W>(exec: Execute<W>, iterations: Counter, entries: seq<Entry>, k: nat, w: W)
    requires k <= |entries|
    ensures forall j :: 0 <= j < |Slots(entries, k)| ==> ValidSlot(entries, Slots(entries, k)[j])
    ensures var (w1, data) := Execution(exec, iterations, entries, k, w);
            (w1, Flatten(data)) == ExecuteSlots(exec, iterations, entries, Slots(entries, k), w)
  {
    forall j | 0 <= j < |Slots(entries, k)|
      ensures ValidSlot(entries, Slots(entries, k)[j])
    {
      SlotsCover(entries, k, Slots(entries, k)[j]);
    }
    if k > 0 {
      ExecutionFollowsSchedule(exec, iterations, entries, k - 1, w);
      var n := |entries[k - 1].threads|;
      var (w1, data) := Execution(exec, iterations, entries, k - 1, w);
      VariantRunsFollowSlots(exec, iterations, entries, k - 1, n, w1);
      ExecuteSlotsAppend(exec, iterations, entries, Slots(entries, k - 1), VariantSlots(k - 1, n), w);
      var (w2, row) := VariantRuns(exec, iterations, entries, k - 1, n, w1);
      assert (data + [row])[..k - 1] == data;
    }
  }

  // ---------------------------------------------------------------------
  // What gets printed
  // ---------------------------------------------------------------------

  /** The caption: the runner's name, with the iteration count when it is non-zero. */
  function CaptionText(name: string, iterations: Counter): (t: string)
    ensures iterations == 0 ==> t == name
    ensures iterations > 0 ==> |t| > |name| + 13 && t[..|name|] == name
    ensures iterations > 0 ==> t[|name|..|name| + 2] == " (" && t[|t| - 12..] == " iterations)"
    ensures iterations > 0 ==> Decimal.AllDigits(t[|name| + 2..|t| - 12]) && Decimal.Value(t[|name| + 2..|t| - 12]) == iterations
  {
    if iterations == 0 then name
    else
      var digits := Decimal.ToDecimal(iterations);
      Decimal.ValueOfToDecimal(iterations);
      var t := name + " (" + digits + " iterations)";
      assert t[|name| + 2..|t| - 12] == digits;
      t
  }

  function ThreadSuffix(threads: u32): string
  {
    if threads > 1 then " ×" + Decimal.ToDecimal(threads) + " threads" else ""
  }

  /** The "running" line of `printRunning`. */
  function RunningLabel(entries: seq<Entry>, s: Slot): string
    requires ValidSlot(entries, s)
  {
    var e := entries[s.index];
    (if s.variant == 0
     then "#" + Decimal.ToDecimal(s.index + 1) + " / " + Decimal.ToDecimal(|entries|) + ": " + e.name
     else "  --\"--")
    + ThreadSuffix(e.threads[s.variant])
  }

  /** The first variant's line names the benchmark's position: the number after '#' reads back as index + 1. */
  lemma RunningLabelShowsPosition(entries: seq<Entry>, s: Slot)
    requires ValidSlot(entries, s) && s.variant == 0
    ensures var line := RunningLabel(entries, s);
            var k := Decimal.DigitPrefixLength(line[1..]);
            line[0] == '#' && Decimal.Value(line[1..][..k]) == s.index + 1
  {
    var rest := " / " + Decimal.ToDecimal(|entries|) + ": " + entries[s.index].name + ThreadSuffix(entries[s.index].threads[0]);
    assert RunningLabel(entries, s) == "#" + Decimal.ToDecimal(s.index + 1) + rest;
    NumberReadsBack(s.index + 1, rest);
  }

  /** A '#' followed by a printed number and then a space: the number reads back. */
  lemma NumberReadsBack(n: nat, rest: string)
    requires |rest| > 0 && rest[0] == ' '
    ensures var line := "#" + Decimal.ToDecimal(n) + rest;
            var k := Decimal.DigitPrefixLength(line[1..]);
            line[0] == '#' && Decimal.Value(line[1..][..k]) == n
  {
    var digits := Decimal.ToDecimal(n);
    var line := "#" + digits + rest;
    assert line[1..] == digits + rest;
    Decimal.DigitPrefixOfDigitsThen(digits, rest);
    assert line[1..][..|digits|] == digits;
    Decimal.ValueOfToDecimal(n);
  }

  /** Later variants print the ditto mark instead of the name. */
  lemma RunningLabelDittoForLaterVariants(entries: seq<Entry>, s: Slot)
    requires ValidSlot(entries, s) && s.variant > 0
    ensures RunningLabel(entries, s)[..7] == "  --\"--"
    ensures entries[s.index].threads[s.variant] <= 1 ==> |RunningLabel(entries, s)| == 7
  {
  }

  /** Length of the line under the benchmark name: `min(unsigned(len), unsigned(width - 6))`. */
  function Underline(name: string, width: int): (n: u32)
    ensures |name| < U32_LIMIT ==> n <= |name|
    ensures |name| < U32_LIMIT && 6 <= width <= |name| + 6 ==> n == width - 6
    ensures |name| < U32_LIMIT && |name| + 6 <= width < U32_LIMIT + 6 ==> n == |name|
  {
    var len := ToU32(|name|);
    var room := ToU32(width - 6);
    if len < room then len else room
  }

  /** A terminal narrower than 6 columns wraps `width - 6` to a huge unsigned value, so the whole name is underlined. */
  lemma NarrowTerminalUnderlinesWholeName(name: string, width: int)
    requires |name| < U32_LIMIT - 6 && 0 <= width < 6
    ensures Underline(name, width) == |name|
  {
    assert ToU32(width - 6) == U32_LIMIT + width - 6;
  }

  /** The data shape `run()` establishes: one result per variant of every benchmark. */
  predicate Shaped(entries: seq<Entry>, data: seq<seq<Engine.Data>>)
  {
    |data| == |entries| && forall i :: 0 <= i < |entries| ==> |data[i]| == |entries[i].threads|
  }

  /** The integer columns of `printResult` for one variant, preceded by the name header for variant 0. */
  function ResultEvents(entries: seq<Entry>, data: seq<seq<Engine.Data>>, width: int, s: Slot): (r: seq<Event>)
    requires Shaped(entries, data) && ValidSlot(entries, s) && |entries[0].threads| > 0
    ensures |r| == if s.variant == 0 then 2 else 1
    ensures r[|r| - 1].Row? && r[|r| - 1].threads == entries[s.index].threads[s.variant]
    ensures r[|r| - 1].baselineNs == Chrono.Ns(Chrono.Duration(data[0][0].wallTime, Chrono.Nanoseconds))
    ensures s.variant == 0 ==> r[0].NameHeader? && r[0].name == entries[s.index].name
                               && (|r[0].name| < U32_LIMIT ==> r[0].underline <= |r[0].name|)
    ensures var wall := Chrono.Ns(Chrono.Duration(data[s.index][s.variant].wallTime, Chrono.Nanoseconds));
            r[|r| - 1].totalUs * 1000 <= wall < r[|r| - 1].totalUs * 1000 + 1000
  {
    var e := entries[s.index];
    var d := data[s.index][s.variant];
    var best := Chrono.Ns(Chrono.Duration(data[0][0].wallTime, Chrono.Nanoseconds));
    var wall := Chrono.Ns(Chrono.Duration(d.wallTime, Chrono.Nanoseconds));
    var user := Chrono.Ms(Chrono.Duration(d.cpuUsage.user, Chrono.Microseconds));
    var system := Chrono.Ms(Chrono.Duration(d.cpuUsage.system, Chrono.Microseconds));
    (if s.variant == 0 then [NameHeader(e.name, Underline(e.name, width))] else [])
    + [Row(e.threads[s.variant], wall / 1000, best, user, if system > 0 then Some(system) else None)]
  }

  /** The system column appears exactly when its millisecond value is positive. */
  lemma SystemColumnOnlyWhenPositive(entries: seq<Entry>, data: seq<seq<Engine.Data>>, width: int, s: Slot)
    requires Shaped(entries, data) && ValidSlot(entries, s) && |entries[0].threads| > 0
    ensures var r := ResultEvents(entries, data, width, s);
            var system := Chrono.Ms(Chrono.Duration(data[s.index][s.variant].cpuUsage.system, Chrono.Microseconds));
            (r[|r| - 1].systemMs.Some? <==> system > 0)
            && (r[|r| - 1].systemMs.Some? ==> r[|r| - 1].systemMs.value == system)
  {
  }

  function RunLog(entries: seq<Entry>, slots: seq<Slot>): (r: seq<Event>)
    requires forall j :: 0 <= j < |slots| ==> ValidSlot(entries, slots[j])
    ensures |r| == 2 * |slots|
  {
    if |slots| == 0 then []
    else
      var s := slots[|slots| - 1];
      RunLog(entries, slots[..|slots| - 1])
      + [Running(RunningLabel(entries, s)), Executed(s.index, s.variant, entries[s.index].threads[s.variant])]
  }

  function ReportLog(entries: seq<Entry>, data: seq<seq<Engine.Data>>, width: int, slots: seq<Slot>): seq<Event>
    requires Shaped(entries, data) && |entries| > 0 && |entries[0].threads| > 0
    requires forall j :: 0 <= j < |slots| ==> ValidSlot(entries, slots[j])
  {
    if |slots| == 0 then []
    else ReportLog(entries, data, width, slots[..|slots| - 1]) + ResultEvents(entries, data, width, slots[|slots| - 1])
  }

  /** In the running log, the j-th execution is the j-th slot of the schedule, announced just before it runs. */
  lemma {:induction false} RunLogFollowsSlots(entries: seq<Entry>, slots: seq<Slot>, j: nat)
    requires forall i :: 0 <= i < |slots| ==> ValidSlot(entries, slots[i])
    requires j < |slots|
    ensures RunLog(entries, slots)[2 * j] == Running(RunningLabel(entries, slots[j]))
    ensures RunLog(entries, slots)[2 * j + 1]
            == Executed(slots[j].index, slots[j].variant, entries[slots[j].index].threads[slots[j].variant])
    decreases |slots|
  {
    if j < |slots| - 1 {
      var front := slots[..|slots| - 1];
      RunLogFollowsSlots(entries, front, j);
      assert front[j] == slots[j];
    }
  }

  /** Every variant runs only when the first benchmark has a result to serve as the baseline. */
  predicate HasBaseline(entries: seq<Entry>)
  {
    AllSlots(entries) != [] ==> |entries| > 0 && |entries[0].threads| > 0
  }

  /** The events of a complete `run()`. */
  function Transcript(reg: Registry, width: int, data: seq<seq<Engine.Data>>): seq<Event>
    requires HasBaseline(reg.entries) && Shaped(reg.entries, data)
  {
    var slots := AllSlots(reg.entries);
    if reg.entries == [] then [Caption(CaptionText(reg.name, reg.iterations))]
    else if slots == [] then
      [Caption(CaptionText(reg.name, reg.iterations))] + RunLog(reg.entries, slots) + [Header, Footer]
    else
      [Caption(CaptionText(reg.name, reg.iterations))] + RunLog(reg.entries, slots) + [Header]
      + ReportLog(reg.entries, data, width, slots) + [Footer]
  }

  /**
   * `Runner::run()`: an empty registry prints the caption only; otherwise
   * each benchmark's result row is sized to its variant count and filled
   * by executing the variants in order, and only then are the header,
   * every result block and the footer printed.
   */
  method Run<W>(reg: Registry, width: int, exec: Execute<W>, w0: W) returns (w: W, data: seq<seq<Engine.Data>>, events: seq<Event>)
    requires HasBaseline(reg.entries)
    ensures (w, data) == Execution(exec, reg.iterations, reg.entries, |reg.entries|, w0)
    ensures Shaped(reg.entries, data)
    ensures events == Transcript(reg, width, data)
    ensures reg.entries == [] ==> w == w0 && events == [Caption(CaptionText(reg.name, reg.iterations))]
  {
    var entries := reg.entries;
    var caption := [Caption(CaptionText(reg.name, reg.iterations))];
    w := w0;
    data := [];
    if |entries| == 0 {
      events := caption;
      return;
    }

    var log: seq<Event> := [];
    var index := 0;
    while index < |entries|
      invariant index <= |entries|
      invariant (w, data) == Execution(exec, reg.iterations, entries, index, w0)
      invariant log == RunLog(entries, Slots(entries, index))
    {
      var row, more;
      w, row, more := RunVariants(entries, index, reg.iterations, exec, w);
      log := log + more;
      data := data + [row];
      index := index + 1;
    }

    var report := Report(entries, data, width);
    events := caption + log + [Header] + report + [Footer];
  }

  /**
   * The inner loop of the execution phase for benchmark `index`: announce
   * and run each variant in turn, collecting the results in a row of the
   * benchmark's size.
   */
  method RunVariants<W>(entries: seq<Entry>, index: nat, iterations: Counter, exec: Execute<W>, w0: W)
    returns (w: W, row: seq<Engine.Data>, log: seq<Event>)
    requires index < |entries|
    ensures (w, row) == VariantRuns(exec, iterations, entries, index, |entries[index].threads|, w0)
    ensures RunLog(entries, Slots(entries, index + 1)) == RunLog(entries, Slots(entries, index)) + log
  {
    w := w0;
    row := [];
    log := [];
    var variant := 0;
    assert Slots(entries, index) + VariantSlots(index, 0) == Slots(entries, index);
    assert RunLog(entries, Slots(entries, index)) + [] == RunLog(entries, Slots(entries, index));
    while variant < |entries[index].threads|
      invariant variant <= |entries[index].threads|
      invariant (w, row) == VariantRuns(exec, iterations, entries, index, variant, w0)
      invariant RunLog(entries, Slots(entries, index) + VariantSlots(index, variant))
                == RunLog(entries, Slots(entries, index)) + log
    {
      var next := Slot(index, variant);
      RunLogStep(entries, index, variant);
      var step := exec(w, index, entries[index].threads[variant], iterations);
      log := log + [Running(RunningLabel(entries, next)), Executed(index, variant, entries[index].threads[variant])];
      w := step.0;
      row := row + [step.1];
      variant := variant + 1;
    }
  }

  lemma RunLogStep(entries: seq<Entry>, index: nat, variant: nat)
    requires index < |entries| && variant < |entries[index].threads|
    ensures RunLog(entries, Slots(entries, index) + VariantSlots(index, variant + 1))
            == RunLog(entries, Slots(entries, index) + VariantSlots(index, variant))
               + [Running(RunningLabel(entries, Slot(index, variant))),
                  Executed(index, variant, entries[index].threads[variant])]
  {
    var done := Slots(entries, index) + VariantSlots(index, variant);
    var next := Slot(index, variant);
    assert VariantSlots(index, variant + 1) == VariantSlots(index, variant) + [next];
    ConcatAssoc(Slots(entries, index), VariantSlots(index, variant), [next]);
    assert (done + [next])[..|done|] == done;
  }

  /** The report phase: one result block per slot of the schedule, in schedule order. */
  method Report(entries: seq<Entry>, data: seq<seq<Engine.Data>>, width: int) returns (events: seq<Event>)
    requires HasBaseline(entries) && Shaped(entries, data) && |entries| > 0
    ensures events == if AllSlots(entries) == [] then [] else ReportLog(entries, data, width, AllSlots(entries))
  {
    var slots := AllSlots(entries);
    events := [];
    if slots == [] {
      return;
    }
    var j := 0;
    while j < |slots|
      invariant j <= |slots|
      invariant events == ReportLog(entries, data, width, slots[..j])
    {
      assert slots[..j + 1][..j] == slots[..j];
      events := events + ResultEvents(entries, data, width, slots[j]);
      j := j + 1;
    }
    assert slots[..j] == slots;
  }
}

=== FILE: stopwatch.dfy ===
/**
 * `Stopwatch<Provider>`: accumulates the time between `start` and `stop`
 * over any number of cycles. The provider is a clock that is read once per
 * call; here each call takes that reading as a parameter. The stopwatch is
 * generic over its unit, which supplies a zero, `+=` and `-`.
 */
module Stopwatch {
  import opened Machine

  /** What a unit type offers the stopwatch: `Unit{}`, `+` and `-`. */
  datatype Arith<!U> = Arith(zero: U, add: (U, U) -> U, sub: (U, U) -> U)

  /** Plain durations (tick counts of `std::chrono::nanoseconds` and friends). */
  function IntArith(): Arith<int>
  {
    Arith(0, (x: int, y: int) => x + y, (x: int, y: int) => x - y)
  }

  /** `m_started` (the last `start` reading) and `m_elapsed` (the running total). */
  datatype Stopwatch<U> = Stopwatch(started: U, elapsed: U)

  /** A freshly constructed stopwatch: both members value-initialised. */
  function New<U>(a: Arith<U>): (sw: Stopwatch<U>)
    ensures Value(sw) == a.zero && sw.started == a.zero
  {
    Stopwatch(a.zero, a.zero)
  }

  /** `start()`: remembers the reading and leaves the total alone. */
  function Start<U>(sw: Stopwatch<U>, now: U): (r: Stopwatch<U>)
    ensures r.started == now
    ensures Value(r) == Value(sw)
  {
    sw.(started := now)
  }

  /**
   * `stop()`: the delta since the last start, which is both returned and
   * added to the total; the start reading is kept.
   */
  function Stop<U>(a: Arith<U>, sw: Stopwatch<U>, now: U): (r: (Stopwatch<U>, U))
    ensures r.1 == a.sub(now, sw.started)
    ensures r.0.started == sw.started
    ensures Value(r.0) == a.add(Value(sw), r.1)
  {
    var delta := a.sub(now, sw.started);
    (sw.(elapsed := a.add(sw.elapsed, delta)), delta)
  }

  /** `value()`: the accumulated total. */
  function Value<U>(sw: Stopwatch<U>): U
  {
    sw.elapsed
  }

  /**
   * A run of `start(); stop();` pairs, the k-th reading `readings[k].0` at
   * start and `readings[k].1` at stop. Yields the final stopwatch and the
   * deltas the stops returned, in order.
   */
  function Cycles<U>(a: Arith<U>, sw: Stopwatch<U>, readings: seq<(U, U)>): (r: (Stopwatch<U>, seq<U>))
    ensures |r.1| == |readings|
    ensures forall k :: 0 <= k < |readings| ==> r.1[k] == a.sub(readings[k].1, readings[k].0)
    ensures |readings| > 0 ==> r.0.started == readings[|readings| - 1].0
    ensures |readings| == 0 ==> r.0 == sw
    decreases |readings|
  {
    if |readings| == 0 then (sw, [])
    else
      var first := Stop(a, Start(sw, readings[0].0), readings[0].1);
      var rest := Cycles(a, first.0, readings[1..]);
      (rest.0, [first.1] + rest.1)
  }

  /** Left fold of `+=` over a sequence of deltas. */
  function AddAll<U>(a: Arith<U>, acc: U, ds: seq<U>): U
  {
    if |ds| == 0 then acc else AddAll(a, a.add(acc, ds[0]), ds[1..])
  }

  /**
   * Whatever the unit, the total after a run of cycles is the old total
   * with every returned delta added in the order the stops happened.
   */
  lemma {:induction false} CyclesAccumulate<U>(a: Arith<U>, sw: Stopwatch<U>, readings: seq<(U, U)>)
    ensures Value(Cycles(a, sw, readings).0) == AddAll(a, Value(sw), Cycles(a, sw, readings).1)
    decreases |readings|
  {
    if |readings| > 0 {
      var first := Stop(a, Start(sw, readings[0].0), readings[0].1);
      CyclesAccumulate(a, first.0, readings[1..]);
      var ds := Cycles(a, sw, readings).1;
      assert ds == [first.1] + Cycles(a, first.0, readings[1..]).1;
      assert ds[1..] == Cycles(a, first.0, readings[1..]).1;
    }
  }

  /**
   * For plain durations: after N start/stop pairs on a fresh stopwatch,
   * `value()` equals the sum of the N deltas that `stop()` returned.
   */
  lemma {:induction false} ValueIsSumOfDeltas(sw: Stopwatch<int>, readings: seq<(int, int)>)
    ensures Value(Cycles(IntArith(), sw, readings).0) == Value(sw) + Sum(Cycles(IntArith(), sw, readings).1)
    decreases |readings|
  {
    if |readings| > 0 {
      var a := IntArith();
      var first := Stop(a, Start(sw, readings[0].0), readings[0].1);
      ValueIsSumOfDeltas(first.0, readings[1..]);
      var ds := Cycles(a, sw, readings).1;
      assert ds[1..] == Cycles(a, first.0, readings[1..]).1;
    }
  }

  /** On a fresh stopwatch, the total is exactly the sum of stop minus start readings. */
  lemma FreshValueIsSumOfSpans(readings: seq<(int, int)>)
    ensures Value(Cycles(IntArith(), New(IntArith()), readings).0) == Sum(Cycles(IntArith(), New(IntArith()), readings).1)
  {
    ValueIsSumOfDeltas(New(IntArith()), readings);
  }

  /** A second `start()` before `stop()` overrides the first: only the latest start counts. */
  lemma LatestStartWins<U>(a: Arith<U>, sw: Stopwatch<U>, first: U, second: U, now: U)
    ensures Stop(a, Start(Start(sw, first), second), now) == Stop(a, Start(sw, second), now)
  {
  }

  /**
   * The time a stopwatch sums when it is started and stopped n times on
   * a clock whose successive readings are `clock(0), clock(1), ...`:
   * the i-th interval runs from reading 2i to reading 2i+1.
   */
  function Span<U>(a: Arith<U>, clock: nat -> U, n: nat): U
  {
    if n == 0 then a.zero else a.add(Span(a, clock, n - 1), a.sub(clock(2 * n - 1), clock(2 * n - 2)))
  }
}

=== FILE: util.dfy ===
/**
 * `AnyObject<IBase, Derived, Others...>` in its selector form, and
 * `bindArg`. The k types of an `AnyObject` are numbered 0 (`Derived`) to
 * k - 1 (the last of `Others`); an object is represented by the number of
 * its type. A `BoolSource` selector is a stateful callable, modelled as the
 * stream of answers it gives: `sel(p)` is the answer to its p-th call.
 */
module Util {
  import opened Machine
  import CmdLine

  /**
   * `make` (and the choice inside `push`) for the types `base .. base+k-1`:
   * each level but the last asks the selector once and builds its own type
   * on true; the last level builds its type without asking. Returns the
   * chosen type and the number of selector calls made so far.
   */
  function Choose(k: nat, sel: nat -> bool, pos: nat): (r: (nat, nat))
    requires k >= 1
    ensures r.0 < k
    ensures r.0 < k - 1 ==> r.1 == pos + r.0 + 1 && sel(pos + r.0)
    ensures r.0 == k - 1 ==> r.1 == pos + k - 1
    ensures forall p :: pos <= p < pos + r.0 ==> !sel(p)
    decreases k
  {
    if k == 1 then (0, pos)
    else if sel(pos) then (0, pos + 1)
    else
      var (i, p) := Choose(k - 1, sel, pos + 1);
      (i + 1, p)
  }

  /** One `push` makes at most k - 1 selector calls; a single-type `AnyObject` never calls it. */
  lemma ChooseCallsBounded(k: nat, sel: nat -> bool, pos: nat)
    requires k >= 1
    ensures pos <= Choose(k, sel, pos).1 <= pos + k - 1
    ensures k == 1 ==> Choose(k, sel, pos) == (0, pos)
  {
  }

  /** The last type is chosen exactly when every one of the k - 1 calls answered false. */
  lemma LastTypeOnlyIfAllDeclined(k: nat, sel: nat -> bool, pos: nat)
    requires k >= 1
    ensures Choose(k, sel, pos).0 == k - 1 <==> forall p :: pos <= p < pos + k - 1 ==> !sel(p)
  {
    var r := Choose(k, sel, pos);
    if r.0 < k - 1 {
      assert sel(pos + r.0);
    }
  }

  /** `push(v, selector, args...)`: appends exactly one object, of the first type the selector accepts (the last type if it accepts none). */
  function Push(v: seq<nat>, k: nat, sel: nat -> bool, pos: nat): (r: (seq<nat>, nat))
    requires k >= 1
    ensures |r.0| == |v| + 1 && r.0[..|v|] == v
    ensures r.0[|v|] < k
    ensures (r.0[|v|], r.1) == Choose(k, sel, pos)
    ensures r.0[|v|] < k - 1 ==> sel(pos + r.0[|v|]) && r.1 == pos + r.0[|v|] + 1
    ensures r.0[|v|] == k - 1 ==> r.1 == pos + k - 1
    ensures forall p :: pos <= p < pos + r.0[|v|] ==> !sel(p)
  {
    var (i, p) := Choose(k, sel, pos);
    (v + [i], p)
  }

  /**
   * `fill(v, selector, n, args...)`, which only the multi-type form has:
   * n pushes in a row.
   */
  function Fill(v: seq<nat>, k: nat, sel: nat -> bool, pos: nat, n: nat): (r: (seq<nat>, nat))
    requires k >= 2
    ensures |r.0| == |v| + n
    ensures r.0[..|v|] == v
    ensures forall j :: |v| <= j < |r.0| ==> r.0[j] < k
    ensures pos <= r.1 <= pos + n * (k - 1)
    decreases n
  {
    if n == 0 then (v, pos)
    else
      var (v1, p1) := Push(v, k, sel, pos);
      var r := Fill(v1, k, sel, p1, n - 1);
      assert r.0[..|v|] == r.0[..|v1|][..|v|];
      r
  }

  /** With a selector that always answers true, every push builds `Derived`. */
  lemma AlwaysTrueBuildsDerived(v: seq<nat>, k: nat, pos: nat, n: nat)
    requires k >= 2
    ensures var r := Fill(v, k, (p: nat) => true, pos, n);
            r.1 == pos + n && forall j :: |v| <= j < |r.0| ==> r.0[j] == 0
    decreases n
  {
    if n > 0 {
      var (v1, p1) := Push(v, k, (p: nat) => true, pos);
      AlwaysTrueBuildsDerived(v1, k, p1, n - 1);
      var r := Fill(v1, k, (p: nat) => true, p1, n - 1);
      assert forall j :: |v| <= j < |v1| ==> v1[j] == 0;
      assert forall j :: |v| <= j < |v1| ==> r.0[j] == r.0[..|v1|][j];
    }
  }

  // ---------------------------------------------------------------------
  // bindArg
  // ---------------------------------------------------------------------

  /** What `bindArg` does: returns true, returns false, or prints the help and exits with failure. */
  datatype Bind = Bound(value: nat) | Unbound(value: nat) | Exit(help: string)

  /**
   * `bindArg(cmd, name, var, help)` for an unsigned integral variable with
   * largest value `max`: true with the parsed value on `Ok`, false with
   * the variable unchanged on `NotFound`, and on `Invalid` the help text
   * goes to standard error and the process exits.
   */
  function BindArg(args: seq<CmdLine.Arg>, name: string, value: nat, max: nat, help: string): (r: Bind)
    ensures r.Bound? <==> CmdLine.GetInt(args, name, value, max).0 == CmdLine.Ok
    ensures r.Unbound? <==> !CmdLine.Has(args, name)
    ensures r.Unbound? ==> r.value == value
    ensures r.Bound? ==> r.value <= max
    ensures r.Bound? ==> r.value == CmdLine.FromChars(CmdLine.Get(args, name, "").1, max).value
    ensures r.Exit? ==> r.help == help
  {
    var (t, v) := CmdLine.GetInt(args, name, value, max);
    match t
    case Ok => Bound(v)
    case NotFound => Unbound(value)
    case Invalid => Exit(help)
  }

  /** Only parseability is checked: `-a 0` is bound even where the program says it must be positive. */
  lemma BindArgAcceptsZero(value: nat)
    ensures BindArg([CmdLine.Arg("-a", "0")], "-a", value, U64_LIMIT - 1, "-a must be a positive integer") == Bound(0)
  {
    assert "0"[..1] == "0" && "0"[1..] == "";
    assert CmdLine.FromChars("0", U64_LIMIT - 1) == CmdLine.Parsed(0, 1);
  }
}
